=== FILE: README.md ===
# Assignment policy validator — Dafny model

The validator reviews the assignments of LMS courses against a fixed course-design policy.
It works in four steps:

1. It reads course ids from free text.
2. It decides whether each course belongs to a massive programme, from the name of its sub-account.
3. It picks the forum, teamwork and final assignments by their names.
4. For each of those it builds a checklist of requirements: the label, the actual value, and pass (✅) or fail (🟥).

The rules depend on the assignment type:

| type | submission | attempts | points | module weight | extra rows |
|---|---|---|---|---|---|
| forum | discussion topic | unlimited (-1) | 100 | 20% | discussion type "threaded" |
| final work | file upload | 2 | 100 | 50% | — |
| final quiz | online quiz | 1 | 30 | 30% | — |
| teamwork | file upload | 2 | 100 | 50% (massive) or 30% | group-category and team-roster checks |

In a massive course the final work is a final quiz, and a final quiz has no rubric rows.

The model is organised as follows:

- `Wrappers`: `Option` and `Result`.
- `Text`: the Python string behaviour the code relies on (`strip`, `replace`, `split`, substring `in`, `str(int)`, list filtering).
- `Helpers`: `helpers.py`, i.e. `clean_string` and `parse_course_ids`.
- `Canvas`: the LMS records as the code reads them.
- `Teams`: `check_group_categories` and `check_team_assignments`.
- `Checklist`: `get_rubric_details` and `analyze_assignment`.
- `Review`: the review loop of `main.py`.

Each checklist row is keyed by the `Requirement` it checks. `Checklist.Label` gives the Spanish text the code uses as the dict key, and no two requirements share a label.

Every fetch from the LMS is an input to the model: `None` when the request failed, otherwise the parsed JSON. Wherever the Python code raises, the model returns `Err` with the kind of exception. Examples are `int(None)`, subscripting `None`, a method call on `None`, and a missing dict key.

There is one deliberate exception: the `KeyError('name')` that functions.py:187 raises for an assignment without a rubric. `Checklist.AnalyzeAsWritten` keeps that crash. `Checklist.Analyze`, `Checklist.AnalyzeAssignment` and `Review.ReviewCourse` use the corrected rubric rows and report a failing "Tiene rubrica" row instead (see "## Findings").

## Model

| member | source | states |
|---|---|---|
| Text.Replace | helpers.py:13 | `replace(a, b)` keeps the length and changes exactly the occurrences of `a`, each into `b`. |
| Text.Strip | helpers.py:5 | `strip()` removes leading and trailing whitespace only. The result is a slice of the input, framed by whitespace, and has no whitespace at either end. |
| Text.Split | helpers.py:14 | `split("\n")` yields at least one piece. No piece holds the separator, and joining the pieces with it restores the input. |
| Text.SplitJoin | helpers.py:14 | Splitting the join of separator-free pieces returns exactly those pieces. |
| Text.SplitAppend | helpers.py:14 | Splitting at one separator and splitting each side concatenates to the split of the whole string. |
| Text.FilterAppend | helpers.py:14 | Filtering a concatenation concatenates the filtered parts. |
| Text.Filter | helpers.py:14 | `filter` keeps, in order, exactly the elements that satisfy the test, each as often as it occurs in the input. |
| Text.Contains | main.py:38 | Python's substring `in` holds exactly when the needle occurs at some position of the haystack. |
| Text.IntToString | functions.py:188 | `str(int(x))` is a decimal numeral without leading zeros that denotes `x`, with a minus sign exactly when `x` is negative. |
| Helpers.CleanString | helpers.py:4-9 | Only deletes characters from the stripped, lower-cased, decomposed text. What is left is in `[\w\s.,!?-]` and contains no combining mark. Every surviving character keeps its order and its count. |
| Helpers.CleanStringNotIdempotent | helpers.py:4-9 | Cleaning twice can differ from cleaning once: "¡ a" cleans to " a", which cleans to "a". |
| Helpers.ParseCourseIds | helpers.py:11-14 | Every id returned is non-empty, already stripped, and free of commas, spaces and newlines. Text made only of separators yields no id. |
| Helpers.ParseJoinedIds | helpers.py:11-14 | Well-formed ids written out with commas, spaces or newlines parse back to the same list: same order, duplicates kept. |
| Helpers.ParseAppend | helpers.py:11-14 | The ids of text with a comma, space or newline in it are the ids before that separator followed by the ids after it. |
| Helpers.ParsePiece | helpers.py:11-14 | A run of text without commas, spaces and newlines gives its stripped text as the only id, or no id when it is blank. With `Helpers.ParseAppend` this fixes the result for every input. |
| Helpers.ParseSeparatorPair | helpers.py:11-14 | Two well-formed ids with two separators between them, as in "1, 2" or "1,,2", give exactly those two ids. |
| Teams.FirstNamed | functions.py:83-84 | `next(...)` finds the first category with exactly that name, and finds none only when no category has it. |
| Teams.StatusOf | functions.py:86-94 | A category is reported as existing exactly when some category has that name. Its id is that of the first match, and no id is given when it does not exist. |
| Teams.CheckGroupCategories | functions.py:77-95 | A failed fetch gives `None`. Otherwise each of "Equipo de trabajo" and "Project Groups" is found exactly when present, with the id of its first occurrence. |
| Teams.StudentIds | functions.py:120 | The student ids are exactly the ids of the listed students. |
| Teams.MemberIds | functions.py:124-126 | The ids one group contributes are exactly the user ids of its memberships. A failed membership fetch contributes none. |
| Teams.AssignedIds | functions.py:121-126 | The collected ids are exactly the users of some membership of some group. |
| Teams.Unassigned | functions.py:133 | The unassigned students are exactly the students who belong to no group. |
| Teams.CheckTeamAssignments | functions.py:103-135 | No categories, or no students once teams exist, gives `None`. A missing "Equipo de trabajo" category or an empty group list gives "not created" with no roster. Otherwise the teams are created, the total is the student set, the unassigned set is exactly the students in no group, and "all assigned" holds exactly when that set is empty. |
| Checklist.LabelInjective | functions.py:186-217 | Two requirements share a label exactly when they are the same requirement, so no two rows share a dict key. |
| Checklist.GetRubricDetails | functions.py:48-59 | A rubric exists exactly when `rubric_settings` is truthy. Its points and title then come from the settings, and the grading flag from the assignment. Without a rubric the details are all negative and carry no title. |
| Checklist.RubricRowsShowSettings | functions.py:187-188 | The "Tiene rubrica" row shows the rubric's title. The "Puntos rubrica" row shows its points as a numeral, or "N/A" when there is no rubric. |
| Checklist.EffectiveType | functions.py:143-145 | Only "finalwork" in a massive course is renamed, and it becomes "quiz_final". A massive course never keeps "finalwork". |
| Checklist.RuleFor | functions.py:152-180 | Exactly the four known types have rules. Only the forum rule has a discussion type and unlimited attempts (-1). Points are 30 for quiz_final and 100 otherwise. |
| Checklist.RubricRows | functions.py:185-191 | The corrected rubric rows, with the title read as `.get("name")` (see "## Findings"). They raise exactly when a rubric has no points; the code as written also raises when there is no rubric (`Checklist.RubricRowsAsWritten`). Otherwise they give the three rubric rows, in order, and the grading row shows "Si" or "No" by its verdict. |
| Checklist.RubricRowsAsWritten | functions.py:187-188 | The rubric rows as written raise whenever there is no rubric, as well as when a rubric has no points. |
| Checklist.CommonRows | functions.py:193-200 | Raises exactly when the points, the module, its weight, its name or the assignment name is missing. Otherwise it gives the six common rows, in order. |
| Checklist.ForumRows | functions.py:203-207 | Raises exactly when the discussion topic is `null`. Otherwise it gives the single discussion-type row, which shows "Si" or "No" by its verdict. |
| Checklist.TeamworkRows | functions.py:213-219 | Raises exactly when the category check failed, or when not all students are known to be assigned and the team check carries no unassigned set. Otherwise it gives the five teamwork rows, in order. The first four show "Si" or "No" by their verdict. The roster row shows "Si" when it passes, and otherwise the size of the unassigned set followed by " sin asignar". |
| Checklist.Analyze | functions.py:138-225 | Raises exactly in the cases `Crashes` lists. Otherwise the rows follow `Layout` for the remapped type: rubric rows unless the type is quiz_final, then the six common rows, then the forum or teamwork rows. |
| Checklist.AnalyzeAsWritten | functions.py:138-225 | As written, the analysis raises in every case the corrected one does, and also whenever an assignment not analysed as quiz_final has no rubric. Otherwise it gives the rows of `Layout`. |
| Checklist.AnalyzeAssignment | functions.py:221-225 | Raises exactly when `Analyze` does. Otherwise the split result has one key and one glyph per checklist row, and the keys are the requirements of `Layout`, in order. |
| Checklist.ToReport | functions.py:222-223 | The table and the glyph list have one entry per checklist row, in row order. Entry k of the table pairs row k's requirement with its actual value, and glyph k is ✅ or 🟥 by row k's verdict. |
| Checklist.ReportRoundTrip | functions.py:221-225 | The label/actual table and the glyph list together give back the whole checklist. |
| Checklist.LookupAt | functions.py:222 | Looking up a row's requirement in the table gives that row's actual value. |
| Checklist.ReportFaithful | functions.py:221-225 | For every row, ✅ is shown exactly when the row passed, and the table maps its requirement to its actual value. |
| Checklist.RubricShown | functions.py:187-189 | The table shows the rubric's title, or `None` without a rubric. It shows the rubric points as a numeral, or "N/A". It shows "Si" or "No" for using the rubric in grading. |
| Checklist.CommonShown | functions.py:194-199 | The table shows: "En línea" exactly when the submission types match the rule, else "Otro". It shows "Ilimitado" exactly when the attempts are -1, else `str` of the attempts. It shows "Puntos" exactly when grading is by points, else "Otro". It shows the points as a numeral, the module weight as a numeral followed by "%", and the module name. |
| Checklist.ForumShown | functions.py:204-207 | The table shows "Si" for the forum row exactly when the discussion type is "threaded", else "No". |
| Checklist.TeamworkShown | functions.py:214-218 | The table shows "Si" or "No" for the group-work, team-category, no-"Project Groups" and teams-created rows, by their checks. For the roster it shows "Si" when every student is in a team, and otherwise the number of unassigned students followed by " sin asignar". |
| Checklist.LayoutShape | functions.py:185-219 | No checklist repeats a requirement. quiz_final has 6 rows, forum 10, teamwork 14, finalwork and unknown types 9. The rubric row is present exactly when the type is not quiz_final. |
| Checklist.RubricVerdicts | functions.py:185-191 | The rubric rows pass exactly when a rubric exists, when it is worth 100 points, and when it is used for grading, respectively. |
| Checklist.QuizFinalHasNoRubricRows | functions.py:185 | A final quiz has no rubric rows. |
| Checklist.CommonVerdicts | functions.py:193-200 | Submission types, attempts, points and weight each pass exactly when they equal the rule's value, including `None` for an unknown type. Grading passes exactly when it is "points". The module passes exactly when the cleaned module and assignment names are equal. |
| Checklist.PolicyVerdicts | functions.py:152-180 | The concrete policy per type: forum (discussion_topic, -1, 100, 20), finalwork (online_upload, 2, 100, 50), quiz_final (online_quiz, 1, 30, 30), teamwork (online_upload, 2, 100, 50 if massive else 30). An unknown type passes submission and attempts only when they are absent, and never passes points or weight. |
| Checklist.ForumVerdict | functions.py:203-207 | The forum row passes exactly when the discussion type is "threaded". |
| Checklist.TeamworkVerdicts | functions.py:213-219 | Each teamwork row passes exactly when, respectively: the group category id is set and non-zero; "Equipo de trabajo" exists; "Project Groups" does not exist; the teams are created; all students are assigned. |
| Checklist.MassiveFinalWorkIsQuiz | functions.py:143-145 | In a massive course finalwork is analysed exactly like quiz_final. No other type is ever renamed. |
| Checklist.AsWrittenRaisesWithoutRubric | functions.py:187 | As written, every assignment without a rubric raises `KeyError('name')` unless it is analysed as quiz_final. Otherwise as-written and corrected agree. |
| Checklist.RubriclessForumWitness | functions.py:187 | A well-formed forum without a rubric raises as written, but gets a checklist with a failing rubric row once corrected. |
| Checklist.NoTeamCategoryRaises | functions.py:218 | A teamwork assignment in a course with categories but no "Equipo de trabajo" always raises. |
| Checklist.AllAssignedTeamworkRows | functions.py:213-219 | When the team check finds every student assigned, the teamwork rows never raise. |
| Review.CourseIdsToReview | main.py:27-30 | Input is refused exactly when it is all whitespace. Otherwise every id handed on is well formed. |
| Review.CommasOnlyReviewsNothing | main.py:27-30 | Any input made only of commas and whitespace, and not blank, passes the blank-input guard yet yields no course. |
| Review.IsMassive | main.py:38 | A missing sub-account name raises. Otherwise a course is massive exactly when the cleaned sub-account name contains the cleaned "Diplomado Masivo". |
| Review.Select | main.py:53-57 | Each list comprehension keeps, in order and with multiplicity, exactly the assignments whose lower-cased, cleaned name passes its test. |
| Review.SelectAssignments | main.py:53-57 | Raises exactly when some assignment has no name. Otherwise each of the three lists is a subsequence of the course's assignments. An assignment is in the forum list exactly when its cleaned name contains "foro academico". It is in the teamwork list exactly when the name contains "trabajo en equipo" or "tarea en equipo". It is in the final list exactly when the name contains "cuestionario final" in a massive course, or "trabajo final" otherwise. |
| Review.Plan | main.py:59-84 | The analyses run in list order: first every forum assignment tagged "forum", then every teamwork assignment tagged "teamwork", then every final assignment tagged "finalwork". |
| Review.RunInOrder | main.py:59-84 | Runs the analyses in order. It stops with the error of the first one that raises, and otherwise gives one result per analysis. |
| Review.ReviewCourse | main.py:52-84 | A nameless assignment makes the review raise. Otherwise there is one report per planned analysis, each equal to that analysis's result, and the review raises exactly when one of them does. |
| Review.PlanMatchesNames | main.py:53-84 | An assignment is analysed as forum, teamwork or finalwork exactly when it is in the course and its name passes that type's test. No other type is used. |
| Review.FinalAssignmentRules | main.py:83 | Final assignments are always passed as "finalwork". In a massive course that means the quiz rules (online quiz, 1, 30, 30), otherwise the final-work rules (online upload, 2, 100, 50). |

## Behaviour worth knowing

Where the code and its prose documentation differ, the model follows the code:

- An empty student list makes `check_team_assignments` return `None` (functions.py:117-118). It does not produce a result in which every student counts as assigned.
- `clean_string` is not idempotent. A leading character outside the kept class can hide whitespace from the first `strip()` (`Helpers.CleanStringNotIdempotent`).
- Forum attempts are checked against -1, i.e. unlimited (functions.py:155, 195).
- The checklist has no quiz-specific detail rows, and the student list is not filtered by enrolment state: neither exists in the code.
- When teams were not created, or the team check failed, the "Alumnos Asignados" row raises instead of failing (functions.py:218, `Checklist.NoTeamCategoryRaises`). That crash is kept, because the text the row should show in that case cannot be inferred from the code.

## Left out

- HTTP and the LMS API: `canvas_request`, pagination, session headers and `config.py`. Every response is an input, with `None` for a failed request.
- The Streamlit page: titles, markdown, tables through `return_df_for_table`/pandas, and the "Corregir" action, which only prints a message.
- Review.ReviewCourse: assumes the page loads and its header lines return. main.py:4 imports `get_student_count` from functions.py, which does not define it. As shipped, the page therefore raises `ImportError` when it loads, before any course is reviewed, and the call at main.py:45 is never reached. The course and sub-account header lines are otherwise display only.
- `get_module_name`'s request. Its result (module name and weight) is the input `Fetched.moduleInfo`, and its `id` is unused.
- Floating point: points and weights are whole numbers. `int()` truncation and Python's `100.0 == 100` are not modelled.
- The Unicode behaviour of `str.lower`, NFD normalisation and the `\w` class. These are the parameters `Helpers.Unicode`, so every proved fact holds for any choice of them. Python whitespace is modelled concretely.
- A missing JSON key and a `null` value are both `None`. The model does not tell `KeyError` from `AttributeError` where the two would differ, for example a nameless assignment in `main.py:53`.
- Teams.AssignedIds: a membership without `user_id` adds `None` to Python's assigned set; the model skips it. Student ids are integers, so `None` never matches a student.
- Checklist.Analyze: `check_group_categories` and `check_team_assignments` each fetch the category list. The model takes their results as two independent inputs; `Checklist.NoTeamCategoryRaises` ties both to one list.
- Review.ReviewCourse: analyses each assignment with the corrected `Checklist.Analyze`, not with `Checklist.AnalyzeAsWritten`. As written, a forum, teamwork or non-massive final assignment without a rubric raises `KeyError('name')` and ends the run (see Findings).
- Review.ReviewCourse: covers one course. An exception in Python ends the whole run, including the courses after it. The loop over course ids is page control flow, and so is skipping a course that has no assignments (main.py:47-50). A course whose fetch failed is never skipped: `course_info.get` raises at main.py:36, before the check at main.py:39.

## Findings

| source | as written | input that shows it | evidently intended | confidence | as-written member | corrected member |
|---|---|---|---|---|---|---|
| functions.py:187 | The "Tiene rubrica" row reads `rubric_details["name"]`. The dict `get_rubric_details` returns for an assignment without rubric (functions.py:59) has no "name" key. | Any forum, teamwork or non-massive final assignment whose `rubric_settings` is absent or empty, e.g. the forum of `Checklist.RubriclessForumWitness`: `KeyError('name')`. | The row reports the missing rubric as a failed requirement with no rubric title. | not executed | Checklist.AsWrittenRaisesWithoutRubric | Checklist.Analyze |

=== FILE: canvas.dfy ===
/** The LMS entities the validator reads, as the JSON objects the LMS returns them. A field the
    code reads with `.get` is an `Option` (absent and `null` behave alike there); a field the code
    only tests for truthiness is a `bool`. */
module Canvas {
  import opened Wrappers

  /** The `rubric_settings` object of an assignment. */
  datatype RubricSettings = RubricSettings(pointsPossible: Option<int>, title: Option<string>)

  /** The `discussion_topic` field. `assignment.get('discussion_topic', {})` turns an absent
      field into `{}`, but a field present with the value `null` stays `None`, and reading
      `.get("discussion_type")` on it raises. */
  datatype DiscussionTopicField =
    | NoTopic
    | NullTopic
    | Topic(discussionType: Option<string>)

  /** An assignment. `rubricSettings` is `None` exactly when the code finds `rubric_settings`
      falsy: absent, `null` or the empty object. `useRubricForGrading` is the truthiness of
      `use_rubric_for_grading`. Numbers are whole numbers. */
  datatype Assignment = Assignment(
    name: Option<string>,
    submissionTypes: Option<seq<string>>,
    allowedAttempts: Option<int>,
    pointsPossible: Option<int>,
    gradingType: Option<string>,
    groupCategoryId: Option<int>,
    rubricSettings: Option<RubricSettings>,
    useRubricForGrading: bool,
    discussionTopic: DiscussionTopicField)

  /** What `get_module_name` returns for a fetched assignment group (module): its `name` and
      `group_weight`. */
  datatype ModuleInfo = ModuleInfo(name: Option<string>, weight: Option<int>)

  datatype GroupCategory = GroupCategory(id: int, name: Option<string>)

  datatype Group = Group(id: int)

  /** A group membership; `userId` is `m.get("user_id")`. */
  datatype Membership = Membership(userId: Option<int>)

  datatype Student = Student(id: int)
}

=== FILE: checklist.dfy ===
/** functions.py, `get_rubric_details` and `analyze_assignment`: one assignment is compared with
    the rule record of its type and the result is an ordered checklist of
    (requirement, actual value, pass/fail) rows, then split into the item-to-actual table and
    the parallel list of status glyphs the caller displays.

    The fetches `analyze_assignment` makes (the module of the assignment, the group categories,
    the team roster) are inputs, bundled in `Fetched`. Where the Python code raises — `int(None)`,
    subscripting `None`, calling a method of `None`, reading a missing dict key — the model
    returns `Err` with the kind of exception. */
module Checklist {
  import opened Wrappers
  import opened Text
  import opened Canvas
  import opened Helpers
  import opened Teams

  // ---------------------------------------------------------------------------
  // Assignment types and the rule table
  // ---------------------------------------------------------------------------

  const FORUM := "forum"
  const FINALWORK := "finalwork"
  const QUIZ_FINAL := "quiz_final"
  const TEAMWORK := "teamwork"

  /** In a massive course the final work is a quiz: "finalwork" is read as "quiz_final" before
      anything else happens; every other type is kept. */
  function EffectiveType(assignmentType: string, isMassive: bool): (t: string)
    ensures t != assignmentType <==> isMassive && assignmentType == FINALWORK
    ensures t != assignmentType ==> t == QUIZ_FINAL
    ensures isMassive ==> t != FINALWORK
  {
    if isMassive && assignmentType == FINALWORK then QUIZ_FINAL else assignmentType
  }

  /** One entry of the rule table. Only the forum entry carries a discussion type. */
  datatype Rule = Rule(
    submissionTypes: seq<string>,
    allowedAttempts: int,
    pointsPossible: int,
    moduleWeight: int,
    discussionType: Option<string>)

  /** `rules.get(assignment_type, {})`: `None` stands for the empty rule set of an unknown type. */
  function RuleFor(t: string, isMassive: bool): (rule: Option<Rule>)
    ensures rule.None? <==> t != FORUM && t != FINALWORK && t != QUIZ_FINAL && t != TEAMWORK
    ensures rule.Some? ==> (rule.value.discussionType.Some? <==> t == FORUM)
    ensures rule.Some? ==> rule.value.pointsPossible == (if t == QUIZ_FINAL then 30 else 100)
    ensures rule.Some? ==> (rule.value.allowedAttempts == -1 <==> t == FORUM)
  {
    if t == FORUM then Some(Rule(["discussion_topic"], -1, 100, 20, Some("threaded")))
    else if t == FINALWORK then Some(Rule(["online_upload"], 2, 100, 50, None))
    else if t == QUIZ_FINAL then Some(Rule(["online_quiz"], 1, 30, 30, None))
    else if t == TEAMWORK then Some(Rule(["online_upload"], 2, 100, if isMassive then 50 else 30, None))
    else None
  }

  // `specific_rules.get(field)`: `None` for every field of the empty rule set.

  function ExpectedSubmissionTypes(rule: Option<Rule>): Option<seq<string>> {
    if rule.Some? then Some(rule.value.submissionTypes) else None
  }

  function ExpectedAttempts(rule: Option<Rule>): Option<int> {
    if rule.Some? then Some(rule.value.allowedAttempts) else None
  }

  function ExpectedPoints(rule: Option<Rule>): Option<int> {
    if rule.Some? then Some(rule.value.pointsPossible) else None
  }

  function ExpectedWeight(rule: Option<Rule>): Option<int> {
    if rule.Some? then Some(rule.value.moduleWeight) else None
  }

  function ExpectedDiscussionType(rule: Option<Rule>): Option<string> {
    if rule.Some? then rule.value.discussionType else None
  }

  // ---------------------------------------------------------------------------
  // Checklist rows
  // ---------------------------------------------------------------------------

  /** One checklist entry; `actual` is `None` where the Python value shown is `None`. */
  datatype Row = Row(item: Requirement, actual: Option<string>, passed: bool)

  /** The exception a Python evaluation raises. */
  datatype Crash =
    | KeyError(key: string)
    | IntOfNone(field: string)
    | SubscriptOfNone(what: string)
    | AttributeOfNone(what: string)

  /** The requirements the checklist reports on, each shown under its Spanish label. */
  datatype Requirement =
    | HasRubric | RubricPoints | RubricGrading
    | SubmissionType | Attempts | GradingType | Points | Weight | ModuleName
    | Threaded
    | GroupWork | TeamCategoryExists | NoProjectGroups | TeamsCreated | StudentsAssigned

  function Label(req: Requirement): string {
    match req
    case HasRubric => "Tiene rubrica"
    case RubricPoints => "Puntos rubrica"
    case RubricGrading => "Usa rubrica para calificar"
    case SubmissionType => "Tipo de entrega"
    case Attempts => "Intentos permitidos"
    case GradingType => "Tipo de calificaci\U{F3}n"
    case Points => "Puntos posibles"
    case Weight => "Ponderaci\U{F3}n"
    case ModuleName => "M\U{F3}dulo"
    case Threaded => "Desactivar respuestas hilvanadas"
    case GroupWork => "Es trabajo en grupo"
    case TeamCategoryExists => "Existe Equipo de trabajo"
    case NoProjectGroups => "Existe Project Groups"
    case TeamsCreated => "Equipos creados"
    case StudentsAssigned => "Alumnos Asignados"
  }

  /** Different requirements have different labels, so the label-keyed dict of the report
      never merges two rows. */
  lemma LabelInjective(r1: Requirement, r2: Requirement)
    ensures Label(r1) == Label(r2) <==> r1 == r2
  {
    LabelSignature(r1);
    LabelSignature(r2);
  }

  /** A label's length and first letter, which already tell the labels apart. */
  function Signature(req: Requirement): (int, char) {
    match req
    case HasRubric => (13, 'T')
    case RubricPoints => (14, 'P')
    case RubricGrading => (26, 'U')
    case SubmissionType => (15, 'T')
    case Attempts => (19, 'I')
    case GradingType => (20, 'T')
    case Points => (15, 'P')
    case Weight => (11, 'P')
    case ModuleName => (6, 'M')
    case Threaded => (32, 'D')
    case GroupWork => (19, 'E')
    case TeamCategoryExists => (24, 'E')
    case NoProjectGroups => (21, 'E')
    case TeamsCreated => (15, 'E')
    case StudentsAssigned => (17, 'A')
  }

  lemma LabelSignature(req: Requirement)
    ensures |Label(req)| > 0 && Signature(req) == (|Label(req)|, Label(req)[0])
  {
  }

  const RUBRIC_ITEMS := [HasRubric, RubricPoints, RubricGrading]
  const COMMON_ITEMS := [SubmissionType, Attempts, GradingType, Points, Weight, ModuleName]
  const TEAMWORK_ITEMS := [GroupWork, TeamCategoryExists, NoProjectGroups, TeamsCreated, StudentsAssigned]

  /** The display order of the checklist for an (already remapped) assignment type: the rubric
      rows unless the type is "quiz_final", then the six rows every type gets, then one forum row
      or five teamwork rows. */
  function Layout(t: string): seq<Requirement> {
    (if t == QUIZ_FINAL then [] else RUBRIC_ITEMS)
    + COMMON_ITEMS
    + ExtraItems(t)
  }

  /** The rows only some types get: one forum row or the five teamwork rows. */
  function ExtraItems(t: string): seq<Requirement> {
    if t == FORUM then [Threaded] else if t == TEAMWORK then TEAMWORK_ITEMS else []
  }

  function Items(rows: seq<Row>): (ls: seq<Requirement>)
    ensures |ls| == |rows|
    ensures forall k :: 0 <= k < |rows| ==> ls[k] == rows[k].item
  {
    seq(|rows|, k requires 0 <= k < |rows| => rows[k].item)
  }

  function YesNo(b: bool): string {
    if b then "Si" else "No"
  }

  /** Python's `str(x)` for an optional integer. */
  function OptionalIntText(x: Option<int>): string {
    if x.Some? then IntToString(x.value) else "None"
  }

  // ---------------------------------------------------------------------------
  // Rubric rows
  // ---------------------------------------------------------------------------

  /** The dict `get_rubric_details` returns. `name` is the rubric title; the no-rubric dict has
      no "name" key at all, which `name == None` stands for there. */
  datatype RubricDetails = RubricDetails(hasRubric: bool, points: Option<int>, usedForGrading: bool, name: Option<string>)

  /** `get_rubric_details`: a rubric exists exactly when `rubric_settings` is truthy, and then
      its points and title come from the settings and the grading flag from the assignment.
      Without one the details are all negative and carry no title. */
  function GetRubricDetails(a: Assignment): (d: RubricDetails)
    ensures d.hasRubric <==> a.rubricSettings.Some?
    ensures a.rubricSettings.None? ==> d == RubricDetails(false, None, false, None)
    ensures a.rubricSettings.Some? ==>
      && d.points == a.rubricSettings.value.pointsPossible
      && d.name == a.rubricSettings.value.title
      && d.usedForGrading == a.useRubricForGrading
  {
    match a.rubricSettings
    case None => RubricDetails(false, None, false, None)
    case Some(rs) => RubricDetails(true, rs.pointsPossible, a.useRubricForGrading, rs.title)
  }

  /** The three rubric rows, with the title looked up as `rubric_details.get("name")`, so an
      assignment without rubric gets a failing "Tiene rubrica" row showing `None`.
      `int(rubric_points)` still raises when a rubric has no points. */
  function RubricRows(d: RubricDetails): (r: Result<seq<Row>, Crash>)
    ensures r.Err? <==> d.hasRubric && d.points.None?
    ensures r.Ok? ==> Items(r.value) == RUBRIC_ITEMS
    ensures r.Ok? ==> r.value[2].actual == Some(YesNo(r.value[2].passed))
  {
    if d.hasRubric && d.points.None? then Err(IntOfNone("rubric_points"))
    else Ok([
      Row(HasRubric, d.name, d.hasRubric),
      Row(RubricPoints, Some(if d.hasRubric then IntToString(d.points.value) else "N/A"), d.points == Some(100)),
      Row(RubricGrading, Some(YesNo(d.usedForGrading)), d.usedForGrading)
    ])
  }

  /** What the first two rubric rows show: the rubric's title, and its points as a numeral, both
      read from `rubric_settings`; "N/A" for the points when there is no rubric. */
  lemma RubricRowsShowSettings(a: Assignment)
    requires !RubricCrash(a)
    ensures var rows := RubricRows(GetRubricDetails(a)).value;
      && |rows| == 3
      && rows[0].actual == (if a.rubricSettings.Some? then a.rubricSettings.value.title else None)
      && rows[1].actual == Some(if a.rubricSettings.Some? then IntToString(a.rubricSettings.value.pointsPossible.value) else "N/A")
  {
  }

  /** The rubric rows exactly as functions.py:186-191 builds them: `rubric_details["name"]` is
      read first, and raises `KeyError` whenever there is no rubric. */
  function RubricRowsAsWritten(d: RubricDetails): (r: Result<seq<Row>, Crash>)
    ensures r.Err? <==> !d.hasRubric || d.points.None?
    ensures r.Ok? ==> r == RubricRows(d) && Items(r.value) == RUBRIC_ITEMS
  {
    if !d.hasRubric then Err(KeyError("name")) else RubricRows(d)
  }

  // ---------------------------------------------------------------------------
  // The six common rows and the type-specific rows
  // ---------------------------------------------------------------------------

  /** The rows every assignment type gets, each compared with the rule set. */
  function CommonRows(u: Unicode, a: Assignment, rule: Option<Rule>, moduleInfo: Option<ModuleInfo>): (r: Result<seq<Row>, Crash>)
    ensures r.Err? <==> CommonCrash(a, moduleInfo)
    ensures r.Ok? ==> Items(r.value) == COMMON_ITEMS
  {
    if a.pointsPossible.None? then Err(IntOfNone("points_possible"))
    else if moduleInfo.None? then Err(SubscriptOfNone("module_info"))
    else if moduleInfo.value.weight.None? then Err(IntOfNone("weight"))
    else if moduleInfo.value.name.None? then Err(AttributeOfNone("module name"))
    else if a.name.None? then Err(AttributeOfNone("assignment name"))
    else
      var moduleName := moduleInfo.value.name.value;
      var sameModule := CleanString(u, moduleName) == CleanString(u, a.name.value);
      var points := a.pointsPossible.value;
      var weight := moduleInfo.value.weight.value;
      Ok(CommonRowsOf(a, rule, points, IntToString(points), weight, IntToString(weight) + "%", moduleName, sameModule))
  }

  function CommonRowsOf(
    a: Assignment, rule: Option<Rule>, points: int, pointsText: string, weight: int, weightText: string,
    moduleName: string, sameModule: bool): (rows: seq<Row>)
    ensures Items(rows) == COMMON_ITEMS
    ensures && rows[0].passed == (a.submissionTypes == ExpectedSubmissionTypes(rule))
            && rows[1].passed == (a.allowedAttempts == ExpectedAttempts(rule))
            && rows[2].passed == (a.gradingType == Some("points"))
            && rows[3].passed == (Some(points) == ExpectedPoints(rule))
            && rows[4].passed == (Some(weight) == ExpectedWeight(rule))
            && rows[5].passed == sameModule
    ensures && rows[0].actual == Some(if rows[0].passed then "En l\U{ED}nea" else "Otro")
            && rows[1].actual == Some(if a.allowedAttempts == Some(-1) then "Ilimitado" else OptionalIntText(a.allowedAttempts))
            && rows[2].actual == Some(if rows[2].passed then "Puntos" else "Otro")
            && rows[3].actual == Some(pointsText)
            && rows[4].actual == Some(weightText)
            && rows[5].actual == Some(moduleName)
  {
    var submissionOk := a.submissionTypes == ExpectedSubmissionTypes(rule);
    var rows := [
      Row(SubmissionType, Some(if submissionOk then "En l\U{ED}nea" else "Otro"), submissionOk),
      Row(Attempts, Some(if a.allowedAttempts == Some(-1) then "Ilimitado" else OptionalIntText(a.allowedAttempts)),
          a.allowedAttempts == ExpectedAttempts(rule)),
      Row(GradingType, Some(if a.gradingType == Some("points") then "Puntos" else "Otro"), a.gradingType == Some("points")),
      Row(Points, Some(pointsText), Some(points) == ExpectedPoints(rule)),
      Row(Weight, Some(weightText), Some(weight) == ExpectedWeight(rule)),
      Row(ModuleName, Some(moduleName), sameModule)
    ];
    assert Items(rows) == [rows[0].item, rows[1].item, rows[2].item, rows[3].item, rows[4].item, rows[5].item];
    rows
  }

  /** The forum row: the discussion must be threaded. */
  function ForumRows(a: Assignment, rule: Option<Rule>): (r: Result<seq<Row>, Crash>)
    ensures r.Err? <==> a.discussionTopic.NullTopic?
    ensures r.Ok? ==> Items(r.value) == [Threaded]
    ensures r.Ok? ==> r.value[0].actual == Some(YesNo(r.value[0].passed))
  {
    match a.discussionTopic
    case NullTopic => Err(AttributeOfNone("discussion_topic"))
    case NoTopic => Ok([Row(Threaded, Some("No"), false)])
    case Topic(dt) =>
      var threaded := dt == ExpectedDiscussionType(rule);
      Ok([Row(Threaded, Some(YesNo(threaded)), threaded)])
  }

  /** The five teamwork rows, from the results of `check_group_categories` and
      `check_team_assignments`. */
  function TeamworkRows(a: Assignment, categories: Option<CategoriesCheck>, teams: Option<TeamsCheck>): (r: Result<seq<Row>, Crash>)
    ensures r.Err? <==> TeamworkCrash(categories, teams)
    ensures r.Ok? ==> Items(r.value) == TEAMWORK_ITEMS
    ensures r.Ok? ==> forall k :: 0 <= k < 4 ==> r.value[k].actual == Some(YesNo(r.value[k].passed))
    ensures r.Ok? && r.value[4].passed ==> r.value[4].actual == Some("Si")
    ensures r.Ok? && !r.value[4].passed ==>
      && teams.Some? && teams.value.unassigned.Some?
      && r.value[4].actual == Some(IntToString(|teams.value.unassigned.value|) + " sin asignar")
  {
    var isGroupWork := a.groupCategoryId.Some? && a.groupCategoryId.value != 0;
    var created := teams.Some? && teams.value.teamsCreated;
    var allAssigned := teams.Some? && teams.value.allAssigned;
    if categories.None? then Err(SubscriptOfNone("group_categories_check"))
    else if !allAssigned && teams.None? then Err(SubscriptOfNone("team_options"))
    else if !allAssigned && teams.value.unassigned.None? then Err(KeyError("unassigned_students"))
    else
      var teamCategory := categories.value.teamCategory.found;
      var projectGroups := categories.value.projectGroups.found;
      Ok([
        Row(GroupWork, Some(YesNo(isGroupWork)), isGroupWork),
        Row(TeamCategoryExists, Some(YesNo(teamCategory)), teamCategory),
        Row(NoProjectGroups, Some(YesNo(!projectGroups)), !projectGroups),
        Row(TeamsCreated, Some(YesNo(created)), created),
        Row(StudentsAssigned,
            Some(if allAssigned then "Si" else IntToString(|teams.value.unassigned.value|) + " sin asignar"),
            allAssigned)
      ])
  }

  /** The results of the fetches `analyze_assignment` makes: `get_module_name` (`None` when
      the request failed), and, for teamwork only, `check_group_categories` and
      `check_team_assignments`. */
  datatype Fetched = Fetched(moduleInfo: Option<ModuleInfo>, categories: Option<CategoriesCheck>, teams: Option<TeamsCheck>)

  function ExtraRows(a: Assignment, t: string, rule: Option<Rule>, f: Fetched): (r: Result<seq<Row>, Crash>)
    ensures r.Err? <==> (t == FORUM && a.discussionTopic.NullTopic?) || (t == TEAMWORK && TeamworkCrash(f.categories, f.teams))
    ensures r.Ok? ==> Items(r.value) == ExtraItems(t)
  {
    if t == FORUM then ForumRows(a, rule)
    else if t == TEAMWORK then TeamworkRows(a, f.categories, f.teams)
    else Ok([])
  }

  // ---------------------------------------------------------------------------
  // When analyze_assignment raises
  // ---------------------------------------------------------------------------

  predicate RubricCrash(a: Assignment) {
    a.rubricSettings.Some? && a.rubricSettings.value.pointsPossible.None?
  }

  predicate CommonCrash(a: Assignment, moduleInfo: Option<ModuleInfo>) {
    || a.pointsPossible.None?
    || moduleInfo.None?
    || moduleInfo.value.weight.None?
    || moduleInfo.value.name.None?
    || a.name.None?
  }

  /** The "Alumnos Asignados" row reads `team_options['unassigned_students']` whenever not all
      students are known to be assigned: it raises when the team check failed (`None`) and when
      it stopped early (no team category, or no groups), because those results lack that key. */
  predicate TeamworkCrash(categories: Option<CategoriesCheck>, teams: Option<TeamsCheck>) {
    || categories.None?
    || (!(teams.Some? && teams.value.allAssigned) && (teams.None? || teams.value.unassigned.None?))
  }

  /** `analyze_assignment` raises, for an assignment whose remapped type is `t`. */
  predicate Crashes(a: Assignment, t: string, f: Fetched) {
    || (t != QUIZ_FINAL && RubricCrash(a))
    || CommonCrash(a, f.moduleInfo)
    || (t == FORUM && a.discussionTopic.NullTopic?)
    || (t == TEAMWORK && TeamworkCrash(f.categories, f.teams))
  }

  // ---------------------------------------------------------------------------
  // analyze_assignment
  // ---------------------------------------------------------------------------

  /** The checklist joined from its three parts, for the remapped type `t`. Python evaluates the
      rubric rows, then the common rows, then the type-specific rows, so the first of them that
      raises decides the exception. */
  function Assemble(t: string, rubric: Result<seq<Row>, Crash>, common: Result<seq<Row>, Crash>, extra: Result<seq<Row>, Crash>): Result<seq<Row>, Crash> {
    var rubricRows :- if t == QUIZ_FINAL then Ok([]) else rubric;
    var commonRows :- common;
    var extraRows :- extra;
    Ok(rubricRows + commonRows + extraRows)
  }

  /** `analyze_assignment` with the rubric title read by `.get` (see RubricRows). It raises
      exactly in the cases `Crashes` lists, and otherwise returns the rows of `Layout` for the
      remapped type, in that order. */
  function Analyze(u: Unicode, a: Assignment, assignmentType: string, isMassive: bool, f: Fetched): (r: Result<seq<Row>, Crash>)
    ensures r.Err? <==> Crashes(a, EffectiveType(assignmentType, isMassive), f)
    ensures r.Ok? ==> Items(r.value) == Layout(EffectiveType(assignmentType, isMassive))
  {
    var t := EffectiveType(assignmentType, isMassive);
    var rule := RuleFor(t, isMassive);
    var rubric := RubricRows(GetRubricDetails(a));
    var common := CommonRows(u, a, rule, f.moduleInfo);
    var extra := ExtraRows(a, t, rule, f);
    AssembledLabels(t, rubric, common, extra);
    Assemble(t, rubric, common, extra)
  }

  /** Joining the three parts gives the rows of `Layout` whenever each part has its own rows. */
  lemma AssembledLabels(t: string, rubric: Result<seq<Row>, Crash>, common: Result<seq<Row>, Crash>, extra: Result<seq<Row>, Crash>)
    requires rubric.Ok? ==> Items(rubric.value) == RUBRIC_ITEMS
    requires common.Ok? ==> Items(common.value) == COMMON_ITEMS
    requires extra.Ok? ==> Items(extra.value) == ExtraItems(t)
    ensures Assemble(t, rubric, common, extra).Ok? ==> Items(Assemble(t, rubric, common, extra).value) == Layout(t)
  {
    var r := Assemble(t, rubric, common, extra);
    if r.Ok? {
      var rr := if t == QUIZ_FINAL then [] else rubric.value;
      assert r.value == rr + common.value + extra.value;
      LabelsAppend(rr, common.value);
      LabelsAppend(rr + common.value, extra.value);
    }
  }

  lemma LabelsAppend(xs: seq<Row>, ys: seq<Row>)
    ensures Items(xs + ys) == Items(xs) + Items(ys)
  {
  }

  /** `analyze_assignment` exactly as written, including the `KeyError` of functions.py:187. */
  function AnalyzeAsWritten(u: Unicode, a: Assignment, assignmentType: string, isMassive: bool, f: Fetched): (r: Result<seq<Row>, Crash>)
    ensures r.Err? <==>
      || Crashes(a, EffectiveType(assignmentType, isMassive), f)
      || (EffectiveType(assignmentType, isMassive) != QUIZ_FINAL && a.rubricSettings.None?)
    ensures r.Ok? ==> Items(r.value) == Layout(EffectiveType(assignmentType, isMassive))
  {
    var t := EffectiveType(assignmentType, isMassive);
    var rule := RuleFor(t, isMassive);
    var rubric := RubricRowsAsWritten(GetRubricDetails(a));
    var common := CommonRows(u, a, rule, f.moduleInfo);
    var extra := ExtraRows(a, t, rule, f);
    AssembledLabels(t, rubric, common, extra);
    Assemble(t, rubric, common, extra)
  }

  // ---------------------------------------------------------------------------
  // The returned pair: item -> actual table and status glyphs
  // ---------------------------------------------------------------------------

  function Glyph(passed: bool): string {
    if passed then "\U{2705}" else "\U{1F7E5}"
  }

  /** `(detalles, third_column)`: the requirements with their actual values, in checklist order,
      and the status glyphs in the same order. A requirement stands for its label as the dict
      key: `Label` gives the text. */
  datatype Report = Report(details: seq<(Requirement, Option<string>)>, status: seq<string>)

  function ToReport(rows: seq<Row>): (rep: Report)
    ensures |rep.details| == |rep.status| == |rows|
    ensures forall k :: 0 <= k < |rows| ==>
      rep.details[k] == (rows[k].item, rows[k].actual) && rep.status[k] == Glyph(rows[k].passed)
  {
    Report(seq(|rows|, k requires 0 <= k < |rows| => (rows[k].item, rows[k].actual)),
           seq(|rows|, k requires 0 <= k < |rows| => Glyph(rows[k].passed)))
  }

  /** Reads the checklist back from the two parallel columns. */
  function FromReport(rep: Report): seq<Row>
    requires |rep.details| == |rep.status|
  {
    seq(|rep.details|, k requires 0 <= k < |rep.details| =>
      Row(rep.details[k].0, rep.details[k].1, rep.status[k] == Glyph(true)))
  }

  /** Splitting loses nothing: the two columns give back the checklist, row for row. */
  lemma ReportRoundTrip(rows: seq<Row>)
    ensures FromReport(ToReport(rows)) == rows
  {
    var back := FromReport(ToReport(rows));
    forall k | 0 <= k < |rows|
      ensures back[k] == rows[k]
    {
      assert Glyph(false) != Glyph(true) by {
        assert Glyph(false)[0] != Glyph(true)[0];
      }
    }
  }

  /** `details[key]` on the label-to-actual table. */
  function Lookup(details: seq<(Requirement, Option<string>)>, key: Requirement): Option<Option<string>>
    decreases |details|
  {
    if |details| == 0 then None
    else if details[0].0 == key then Some(details[0].1)
    else Lookup(details[1..], key)
  }

  /** The verdict shown next to `item`, if the checklist has that row. */
  function VerdictOf(rows: seq<Row>, item: Requirement): Option<bool>
    decreases |rows|
  {
    if |rows| == 0 then None
    else if rows[0].item == item then Some(rows[0].passed)
    else VerdictOf(rows[1..], item)
  }

  /** `analyze_assignment` with its result split. */
  function AnalyzeAssignment(u: Unicode, a: Assignment, assignmentType: string, isMassive: bool, f: Fetched): (r: Result<Report, Crash>)
    ensures r.Err? <==> Crashes(a, EffectiveType(assignmentType, isMassive), f)
    ensures r.Ok? ==> |r.value.details| == |r.value.status| == |Layout(EffectiveType(assignmentType, isMassive))|
    ensures r.Ok? ==> forall k :: 0 <= k < |r.value.details| ==>
      r.value.details[k].0 == Layout(EffectiveType(assignmentType, isMassive))[k]
  {
    ReportOf(Analyze(u, a, assignmentType, isMassive, f), Layout(EffectiveType(assignmentType, isMassive)))
  }

  /** The split result of a checklist whose rows are `layout`, or its exception. */
  function ReportOf(rows: Result<seq<Row>, Crash>, layout: seq<Requirement>): (r: Result<Report, Crash>)
    requires rows.Ok? ==> Items(rows.value) == layout
    ensures r.Err? <==> rows.Err?
    ensures r.Ok? ==> |r.value.details| == |r.value.status| == |layout|
    ensures r.Ok? ==> forall k :: 0 <= k < |r.value.details| ==> r.value.details[k].0 == layout[k]
  {
    var rows :- rows;
    Ok(ToReport(rows))
  }

  /** The label-to-actual table answers every row's label with that row's actual value. */
  lemma {:induction false} LookupAt(rows: seq<Row>, i: int)
    requires Distinct(Items(rows))
    requires 0 <= i < |rows|
    ensures Lookup(ToReport(rows).details, rows[i].item) == Some(rows[i].actual)
    decreases |rows|
  {
    var details := ToReport(rows).details;
    if i > 0 {
      assert rows[0].item != rows[i].item by {
        assert Items(rows)[0] != Items(rows)[i];
      }
      assert Distinct(Items(rows[1..])) by {
        forall p, q | 0 <= p < q < |rows| - 1
          ensures Items(rows[1..])[p] != Items(rows[1..])[q]
        {
          assert Items(rows)[p + 1] != Items(rows)[q + 1];
        }
      }
      ReportTail(rows);
      LookupAt(rows[1..], i - 1);
    }
  }

  /** The table of the rows after the first is the table of all rows after its first entry. */
  lemma ReportTail(rows: seq<Row>)
    requires |rows| > 0
    ensures ToReport(rows[1..]).details == ToReport(rows).details[1..]
  {
    var tail, all := ToReport(rows[1..]).details, ToReport(rows).details;
    assert |tail| == |all[1..]|;
    forall k | 0 <= k < |tail|
      ensures tail[k] == all[1..][k]
    {
      assert all[1..][k] == all[k + 1] == (rows[k + 1].item, rows[k + 1].actual);
      assert rows[1..][k] == rows[k + 1];
    }
  }

  /** In a checklist whose labels are distinct, each row's label finds that row's verdict. */
  lemma {:induction false} VerdictAt(rows: seq<Row>, i: int)
    requires Distinct(Items(rows))
    requires 0 <= i < |rows|
    ensures VerdictOf(rows, rows[i].item) == Some(rows[i].passed)
    decreases |rows|
  {
    if i > 0 {
      assert rows[0].item != rows[i].item by {
        assert Items(rows)[0] != Items(rows)[i];
      }
      assert Distinct(Items(rows[1..])) by {
        forall p, q | 0 <= p < q < |rows| - 1
          ensures Items(rows[1..])[p] != Items(rows[1..])[q]
        {
          assert Items(rows)[p + 1] != Items(rows)[q + 1];
        }
      }
      VerdictAt(rows[1..], i - 1);
    }
  }

  /** A label the checklist does not carry has no verdict. */
  lemma {:induction false} VerdictAbsent(rows: seq<Row>, item: Requirement)
    requires item !in Items(rows)
    ensures VerdictOf(rows, item) == None
    decreases |rows|
  {
    if |rows| > 0 {
      assert Items(rows)[0] == rows[0].item;
      assert Items(rows[1..]) == Items(rows)[1..];
      VerdictAbsent(rows[1..], item);
    }
  }

  // ---------------------------------------------------------------------------
  // Properties of the checklist
  // ---------------------------------------------------------------------------

  /** No checklist repeats a requirement, and its length is fixed by the remapped type: 6 rows
      for "quiz_final", 10 for "forum", 14 for "teamwork", and 9 for "finalwork" and for any
      type the rule table does not know. */
  lemma LayoutShape(t: string)
    ensures Distinct(Layout(t))
    ensures |Layout(t)| == (if t == QUIZ_FINAL then 6 else if t == FORUM then 10 else if t == TEAMWORK then 14 else 9)
    ensures HasRubric in Layout(t) <==> t != QUIZ_FINAL
  {
  }

  /** The rows of a successful analysis, as the three parts `Assemble` joins. */
  lemma Parts(u: Unicode, a: Assignment, assignmentType: string, isMassive: bool, f: Fetched)
    returns (rubricRows: seq<Row>, commonRows: seq<Row>, extraRows: seq<Row>)
    requires !Crashes(a, EffectiveType(assignmentType, isMassive), f)
    ensures Analyze(u, a, assignmentType, isMassive, f).value == rubricRows + commonRows + extraRows
    ensures var t := EffectiveType(assignmentType, isMassive);
      && (t == QUIZ_FINAL ==> rubricRows == [])
      && (t != QUIZ_FINAL ==> RubricRows(GetRubricDetails(a)) == Ok(rubricRows))
      && CommonRows(u, a, RuleFor(t, isMassive), f.moduleInfo) == Ok(commonRows)
      && ExtraRows(a, t, RuleFor(t, isMassive), f) == Ok(extraRows)
    ensures Distinct(Items(rubricRows + commonRows + extraRows))
  {
    var t := EffectiveType(assignmentType, isMassive);
    var rule := RuleFor(t, isMassive);
    rubricRows := if t == QUIZ_FINAL then [] else RubricRows(GetRubricDetails(a)).value;
    commonRows := CommonRows(u, a, rule, f.moduleInfo).value;
    extraRows := ExtraRows(a, t, rule, f).value;
    LayoutShape(t);
  }

  /** The verdict of row `k` of the middle part. */
  lemma VerdictOfPart(rubricRows: seq<Row>, commonRows: seq<Row>, extraRows: seq<Row>, part: seq<Row>, k: int)
    requires Distinct(Items(rubricRows + commonRows + extraRows))
    requires part == rubricRows || part == commonRows || part == extraRows
    requires 0 <= k < |part|
    ensures VerdictOf(rubricRows + commonRows + extraRows, part[k].item) == Some(part[k].passed)
  {
    var rows := rubricRows + commonRows + extraRows;
    var i := if part == rubricRows then k else if part == commonRows then |rubricRows| + k else |rubricRows| + |commonRows| + k;
    assert rows[i] == part[k];
    VerdictAt(rows, i);
  }

  /** The rubric rows: the rubric must exist, be worth 100 points and be used for grading. */
  lemma RubricVerdicts(u: Unicode, a: Assignment, assignmentType: string, isMassive: bool, f: Fetched)
    requires !Crashes(a, EffectiveType(assignmentType, isMassive), f)
    requires EffectiveType(assignmentType, isMassive) != QUIZ_FINAL
    ensures var rows := Analyze(u, a, assignmentType, isMassive, f).value;
      && VerdictOf(rows, HasRubric) == Some(a.rubricSettings.Some?)
      && VerdictOf(rows, RubricPoints) == Some(a.rubricSettings.Some? && a.rubricSettings.value.pointsPossible == Some(100))
      && VerdictOf(rows, RubricGrading) == Some(a.rubricSettings.Some? && a.useRubricForGrading)
  {
    var rr, cr, er := Parts(u, a, assignmentType, isMassive, f);
    RubricRowsPass(GetRubricDetails(a));
    VerdictOfPart(rr, cr, er, rr, 0);
    VerdictOfPart(rr, cr, er, rr, 1);
    VerdictOfPart(rr, cr, er, rr, 2);
  }

  /** A final quiz has no rubric rows at all. */
  lemma QuizFinalHasNoRubricRows(u: Unicode, a: Assignment, assignmentType: string, isMassive: bool, f: Fetched)
    requires !Crashes(a, EffectiveType(assignmentType, isMassive), f)
    requires EffectiveType(assignmentType, isMassive) == QUIZ_FINAL
    ensures var rows := Analyze(u, a, assignmentType, isMassive, f).value;
      && VerdictOf(rows, HasRubric) == None
      && VerdictOf(rows, RubricPoints) == None
      && VerdictOf(rows, RubricGrading) == None
  {
    var rows := Analyze(u, a, assignmentType, isMassive, f).value;
    QuizFinalLayout();
    CommonRowsHaveNoRubric(rows);
  }

  lemma QuizFinalLayout()
    ensures Layout(QUIZ_FINAL) == COMMON_ITEMS
  {
  }

  lemma CommonRowsHaveNoRubric(rows: seq<Row>)
    requires Items(rows) == COMMON_ITEMS
    ensures VerdictOf(rows, HasRubric) == None
    ensures VerdictOf(rows, RubricPoints) == None
    ensures VerdictOf(rows, RubricGrading) == None
  {
    VerdictAbsent(rows, HasRubric);
    VerdictAbsent(rows, RubricPoints);
    VerdictAbsent(rows, RubricGrading);
  }

  lemma RubricRowsPass(d: RubricDetails)
    requires RubricRows(d).Ok?
    ensures var rows := RubricRows(d).value;
      && rows[0].passed == d.hasRubric
      && rows[1].passed == (d.points == Some(100))
      && rows[2].passed == d.usedForGrading
  {
  }

  /** The verdicts of the six common rows given the verdict each compares against. */
  predicate CommonVerdictsAre(
    rows: seq<Row>, a: Assignment, weight: Option<int>,
    submissionTypes: Option<seq<string>>, attempts: Option<int>, points: Option<int>, moduleWeight: Option<int>)
  {
    && VerdictOf(rows, SubmissionType) == Some(a.submissionTypes == submissionTypes)
    && VerdictOf(rows, Attempts) == Some(a.allowedAttempts == attempts)
    && VerdictOf(rows, GradingType) == Some(a.gradingType == Some("points"))
    && VerdictOf(rows, Points) == Some(a.pointsPossible == points)
    && VerdictOf(rows, Weight) == Some(weight == moduleWeight)
  }

  /** The common rows pass exactly when the field equals the rule's value — including for a
      type with no rules, where the expected value is `None` — the grading type is "points",
      and the module and assignment names agree once cleaned. */
  lemma CommonVerdicts(u: Unicode, a: Assignment, assignmentType: string, isMassive: bool, f: Fetched)
    requires !Crashes(a, EffectiveType(assignmentType, isMassive), f)
    ensures var rows := Analyze(u, a, assignmentType, isMassive, f).value;
      var rule := RuleFor(EffectiveType(assignmentType, isMassive), isMassive);
      && CommonVerdictsAre(rows, a, f.moduleInfo.value.weight, ExpectedSubmissionTypes(rule), ExpectedAttempts(rule), ExpectedPoints(rule), ExpectedWeight(rule))
      && VerdictOf(rows, ModuleName) == Some(CleanString(u, f.moduleInfo.value.name.value) == CleanString(u, a.name.value))
  {
    var rr, cr, er := Parts(u, a, assignmentType, isMassive, f);
    CommonPartVerdicts(u, a, RuleFor(EffectiveType(assignmentType, isMassive), isMassive), f.moduleInfo, rr, cr, er);
  }

  lemma CommonPartVerdicts(u: Unicode, a: Assignment, rule: Option<Rule>, moduleInfo: Option<ModuleInfo>, rr: seq<Row>, cr: seq<Row>, er: seq<Row>)
    requires CommonRows(u, a, rule, moduleInfo) == Ok(cr)
    requires Distinct(Items(rr + cr + er))
    ensures CommonVerdictsAre(rr + cr + er, a, moduleInfo.value.weight, ExpectedSubmissionTypes(rule), ExpectedAttempts(rule), ExpectedPoints(rule), ExpectedWeight(rule))
    ensures VerdictOf(rr + cr + er, ModuleName) == Some(CleanString(u, moduleInfo.value.name.value) == CleanString(u, a.name.value))
  {
    CommonRowsPass(u, a, rule, moduleInfo);
    VerdictOfPart(rr, cr, er, cr, 0);
    VerdictOfPart(rr, cr, er, cr, 1);
    VerdictOfPart(rr, cr, er, cr, 2);
    VerdictOfPart(rr, cr, er, cr, 3);
    VerdictOfPart(rr, cr, er, cr, 4);
    VerdictOfPart(rr, cr, er, cr, 5);
  }

  /** Each common row's verdict. */
  lemma CommonRowsPass(u: Unicode, a: Assignment, rule: Option<Rule>, moduleInfo: Option<ModuleInfo>)
    requires CommonRows(u, a, rule, moduleInfo).Ok?
    ensures var rows := CommonRows(u, a, rule, moduleInfo).value;
      && |rows| == 6
      && rows[0].passed == (a.submissionTypes == ExpectedSubmissionTypes(rule))
      && rows[1].passed == (a.allowedAttempts == ExpectedAttempts(rule))
      && rows[2].passed == (a.gradingType == Some("points"))
      && rows[3].passed == (a.pointsPossible == ExpectedPoints(rule))
      && rows[4].passed == (moduleInfo.value.weight == ExpectedWeight(rule))
      && rows[5].passed == (CleanString(u, moduleInfo.value.name.value) == CleanString(u, a.name.value))
  {
    var name := moduleInfo.value.name.value;
    var same := CleanString(u, name) == CleanString(u, a.name.value);
    var points := a.pointsPossible.value;
    var weight := moduleInfo.value.weight.value;
    var pointsText := IntToString(points);
    var weightText := IntToString(weight) + "%";
    assert CommonRows(u, a, rule, moduleInfo).value == CommonRowsOf(a, rule, points, pointsText, weight, weightText, name, same);
  }


  // ---------------------------------------------------------------------------
  // What the table shows
  // ---------------------------------------------------------------------------

  /** A successful analysis returns its checklist split into the two columns. */
  lemma AnalyzedReport(u: Unicode, a: Assignment, assignmentType: string, isMassive: bool, f: Fetched)
    requires !Crashes(a, EffectiveType(assignmentType, isMassive), f)
    ensures AnalyzeAssignment(u, a, assignmentType, isMassive, f) == Ok(ToReport(Analyze(u, a, assignmentType, isMassive, f).value))
  {
  }

  /** The value the table shows for row `k` of one part. */
  lemma ShownOfPart(rubricRows: seq<Row>, commonRows: seq<Row>, extraRows: seq<Row>, part: seq<Row>, k: int)
    requires Distinct(Items(rubricRows + commonRows + extraRows))
    requires part == rubricRows || part == commonRows || part == extraRows
    requires 0 <= k < |part|
    ensures Lookup(ToReport(rubricRows + commonRows + extraRows).details, part[k].item) == Some(part[k].actual)
  {
    var rows := rubricRows + commonRows + extraRows;
    var i := if part == rubricRows then k else if part == commonRows then |rubricRows| + k else |rubricRows| + |commonRows| + k;
    assert rows[i] == part[k];
    LookupAt(rows, i);
  }

  /** The rubric values in the table: the rubric's title (`None` without a rubric), its points
      as a numeral or "N/A", and "Si"/"No" for its use in grading. */
  lemma RubricShown(u: Unicode, a: Assignment, assignmentType: string, isMassive: bool, f: Fetched)
    requires !Crashes(a, EffectiveType(assignmentType, isMassive), f)
    requires EffectiveType(assignmentType, isMassive) != QUIZ_FINAL
    ensures var shown := AnalyzeAssignment(u, a, assignmentType, isMassive, f).value.details;
      && Lookup(shown, HasRubric) == Some(if a.rubricSettings.Some? then a.rubricSettings.value.title else None)
      && Lookup(shown, RubricPoints) ==
           Some(Some(if a.rubricSettings.Some? then IntToString(a.rubricSettings.value.pointsPossible.value) else "N/A"))
      && Lookup(shown, RubricGrading) == Some(Some(YesNo(a.rubricSettings.Some? && a.useRubricForGrading)))
  {
    var rr, cr, er := Parts(u, a, assignmentType, isMassive, f);
    AnalyzedReport(u, a, assignmentType, isMassive, f);
    RubricRowsShowSettings(a);
    RubricRowsPass(GetRubricDetails(a));
    ShownOfPart(rr, cr, er, rr, 0);
    ShownOfPart(rr, cr, er, rr, 1);
    ShownOfPart(rr, cr, er, rr, 2);
  }

  /** The common values in the table: "En línea" or "Otro" by the submission verdict,
      "Ilimitado" for -1 attempts and otherwise `str` of the attempts, "Puntos" or "Otro" by the
      grading type, the points as a numeral, the weight as a numeral with "%", and the module
      name. */
  lemma CommonShown(u: Unicode, a: Assignment, assignmentType: string, isMassive: bool, f: Fetched)
    requires !Crashes(a, EffectiveType(assignmentType, isMassive), f)
    ensures var shown := AnalyzeAssignment(u, a, assignmentType, isMassive, f).value.details;
      var rule := RuleFor(EffectiveType(assignmentType, isMassive), isMassive);
      && Lookup(shown, SubmissionType) == Some(Some(if a.submissionTypes == ExpectedSubmissionTypes(rule) then "En l\U{ED}nea" else "Otro"))
      && Lookup(shown, Attempts) == Some(Some(if a.allowedAttempts == Some(-1) then "Ilimitado" else OptionalIntText(a.allowedAttempts)))
      && Lookup(shown, GradingType) == Some(Some(if a.gradingType == Some("points") then "Puntos" else "Otro"))
      && Lookup(shown, Points) == Some(Some(IntToString(a.pointsPossible.value)))
      && Lookup(shown, Weight) == Some(Some(IntToString(f.moduleInfo.value.weight.value) + "%"))
      && Lookup(shown, ModuleName) == Some(f.moduleInfo.value.name)
  {
    var rr, cr, er := Parts(u, a, assignmentType, isMassive, f);
    AnalyzedReport(u, a, assignmentType, isMassive, f);
    CommonPartShown(u, a, RuleFor(EffectiveType(assignmentType, isMassive), isMassive), f.moduleInfo, rr, cr, er);
  }

  lemma CommonPartShown(u: Unicode, a: Assignment, rule: Option<Rule>, moduleInfo: Option<ModuleInfo>, rr: seq<Row>, cr: seq<Row>, er: seq<Row>)
    requires CommonRows(u, a, rule, moduleInfo) == Ok(cr)
    requires Distinct(Items(rr + cr + er))
    ensures var shown := ToReport(rr + cr + er).details;
      && Lookup(shown, SubmissionType) == Some(Some(if a.submissionTypes == ExpectedSubmissionTypes(rule) then "En l\U{ED}nea" else "Otro"))
      && Lookup(shown, Attempts) == Some(Some(if a.allowedAttempts == Some(-1) then "Ilimitado" else OptionalIntText(a.allowedAttempts)))
      && Lookup(shown, GradingType) == Some(Some(if a.gradingType == Some("points") then "Puntos" else "Otro"))
      && Lookup(shown, Points) == Some(Some(IntToString(a.pointsPossible.value)))
      && Lookup(shown, Weight) == Some(Some(IntToString(moduleInfo.value.weight.value) + "%"))
      && Lookup(shown, ModuleName) == Some(moduleInfo.value.name)
  {
    CommonRowsShow(u, a, rule, moduleInfo);
    ShownOfPart(rr, cr, er, cr, 0);
    ShownOfPart(rr, cr, er, cr, 1);
    ShownOfPart(rr, cr, er, cr, 2);
    ShownOfPart(rr, cr, er, cr, 3);
    ShownOfPart(rr, cr, er, cr, 4);
    ShownOfPart(rr, cr, er, cr, 5);
  }

  /** What each common row shows. */
  lemma CommonRowsShow(u: Unicode, a: Assignment, rule: Option<Rule>, moduleInfo: Option<ModuleInfo>)
    requires CommonRows(u, a, rule, moduleInfo).Ok?
    ensures var rows := CommonRows(u, a, rule, moduleInfo).value;
      && |rows| == 6
      && rows[0].actual == Some(if a.submissionTypes == ExpectedSubmissionTypes(rule) then "En l\U{ED}nea" else "Otro")
      && rows[1].actual == Some(if a.allowedAttempts == Some(-1) then "Ilimitado" else OptionalIntText(a.allowedAttempts))
      && rows[2].actual == Some(if a.gradingType == Some("points") then "Puntos" else "Otro")
      && rows[3].actual == Some(IntToString(a.pointsPossible.value))
      && rows[4].actual == Some(IntToString(moduleInfo.value.weight.value) + "%")
      && rows[5].actual == moduleInfo.value.name
  {
    var name := moduleInfo.value.name.value;
    var same := CleanString(u, name) == CleanString(u, a.name.value);
    var points := a.pointsPossible.value;
    var weight := moduleInfo.value.weight.value;
    var pointsText := IntToString(points);
    var weightText := IntToString(weight) + "%";
    assert CommonRows(u, a, rule, moduleInfo).value == CommonRowsOf(a, rule, points, pointsText, weight, weightText, name, same);
  }

  /** The forum value in the table: "Si" exactly when the discussion is threaded, else "No". */
  lemma ForumShown(u: Unicode, a: Assignment, assignmentType: string, isMassive: bool, f: Fetched)
    requires !Crashes(a, EffectiveType(assignmentType, isMassive), f)
    requires EffectiveType(assignmentType, isMassive) == FORUM
    ensures Lookup(AnalyzeAssignment(u, a, assignmentType, isMassive, f).value.details, Threaded)
      == Some(Some(YesNo(a.discussionTopic == Topic(Some("threaded")))))
  {
    var rr, cr, er := Parts(u, a, assignmentType, isMassive, f);
    AnalyzedReport(u, a, assignmentType, isMassive, f);
    ShownOfPart(rr, cr, er, er, 0);
  }

  /** The teamwork values in the table: "Si"/"No" for the first four checks, and for the
      roster "Si" when every student is in a team, otherwise the number of unassigned students
      followed by " sin asignar". */
  lemma TeamworkShown(u: Unicode, a: Assignment, assignmentType: string, isMassive: bool, f: Fetched)
    requires !Crashes(a, EffectiveType(assignmentType, isMassive), f)
    requires EffectiveType(assignmentType, isMassive) == TEAMWORK
    ensures var shown := AnalyzeAssignment(u, a, assignmentType, isMassive, f).value.details;
      && Lookup(shown, GroupWork) == Some(Some(YesNo(a.groupCategoryId.Some? && a.groupCategoryId.value != 0)))
      && Lookup(shown, TeamCategoryExists) == Some(Some(YesNo(f.categories.value.teamCategory.found)))
      && Lookup(shown, NoProjectGroups) == Some(Some(YesNo(!f.categories.value.projectGroups.found)))
      && Lookup(shown, TeamsCreated) == Some(Some(YesNo(f.teams.Some? && f.teams.value.teamsCreated)))
      && Lookup(shown, StudentsAssigned) == Some(Some(
           if f.teams.Some? && f.teams.value.allAssigned then "Si"
           else IntToString(|f.teams.value.unassigned.value|) + " sin asignar"))
  {
    var rr, cr, er := Parts(u, a, assignmentType, isMassive, f);
    AnalyzedReport(u, a, assignmentType, isMassive, f);
    ShownOfPart(rr, cr, er, er, 0);
    ShownOfPart(rr, cr, er, er, 1);
    ShownOfPart(rr, cr, er, er, 2);
    ShownOfPart(rr, cr, er, er, 3);
    ShownOfPart(rr, cr, er, er, 4);
  }

  /** The policy numbers each type is held to. A forum: discussion topic, unlimited attempts
      (-1), 100 points, 20% weight. Final work: one upload type, 2 attempts, 100 points, 50%.
      Final quiz (also final work in a massive course): online quiz, 1 attempt, 30 points,
      30%. Teamwork: upload, 2 attempts, 100 points, 50% in a massive course and 30% otherwise.
      Any other type: only absent fields match, and no points or weight pass. */
  lemma PolicyVerdicts(u: Unicode, a: Assignment, assignmentType: string, isMassive: bool, f: Fetched)
    requires !Crashes(a, EffectiveType(assignmentType, isMassive), f)
    ensures var rows := Analyze(u, a, assignmentType, isMassive, f).value;
      var t := EffectiveType(assignmentType, isMassive);
      var w := f.moduleInfo.value.weight;
      && (t == FORUM ==> CommonVerdictsAre(rows, a, w, Some(["discussion_topic"]), Some(-1), Some(100), Some(20)))
      && (t == FINALWORK ==> CommonVerdictsAre(rows, a, w, Some(["online_upload"]), Some(2), Some(100), Some(50)))
      && (t == QUIZ_FINAL ==> CommonVerdictsAre(rows, a, w, Some(["online_quiz"]), Some(1), Some(30), Some(30)))
      && (t == TEAMWORK ==> CommonVerdictsAre(rows, a, w, Some(["online_upload"]), Some(2), Some(100), Some(if isMassive then 50 else 30)))
      && (t !in {FORUM, FINALWORK, QUIZ_FINAL, TEAMWORK} ==>
            && VerdictOf(rows, SubmissionType) == Some(a.submissionTypes.None?)
            && VerdictOf(rows, Attempts) == Some(a.allowedAttempts.None?)
            && VerdictOf(rows, Points) == Some(false)
            && VerdictOf(rows, Weight) == Some(false))
  {
    CommonVerdicts(u, a, assignmentType, isMassive, f);
  }

  /** The forum row passes exactly when the discussion is threaded. */
  lemma ForumVerdict(u: Unicode, a: Assignment, assignmentType: string, isMassive: bool, f: Fetched)
    requires !Crashes(a, EffectiveType(assignmentType, isMassive), f)
    requires EffectiveType(assignmentType, isMassive) == FORUM
    ensures VerdictOf(Analyze(u, a, assignmentType, isMassive, f).value, Threaded)
      == Some(a.discussionTopic == Topic(Some("threaded")))
  {
    var rr, cr, er := Parts(u, a, assignmentType, isMassive, f);
    VerdictOfPart(rr, cr, er, er, 0);
  }

  /** The teamwork rows: the assignment must be a group assignment, the category
      "Equipo de trabajo" must exist, the category "Project Groups" must not, the teams must be
      created and every student must be in one. */
  lemma TeamworkVerdicts(u: Unicode, a: Assignment, assignmentType: string, isMassive: bool, f: Fetched)
    requires !Crashes(a, EffectiveType(assignmentType, isMassive), f)
    requires EffectiveType(assignmentType, isMassive) == TEAMWORK
    ensures var rows := Analyze(u, a, assignmentType, isMassive, f).value;
      && VerdictOf(rows, GroupWork) == Some(a.groupCategoryId.Some? && a.groupCategoryId.value != 0)
      && VerdictOf(rows, TeamCategoryExists) == Some(f.categories.value.teamCategory.found)
      && VerdictOf(rows, NoProjectGroups) == Some(!f.categories.value.projectGroups.found)
      && VerdictOf(rows, TeamsCreated) == Some(f.teams.Some? && f.teams.value.teamsCreated)
      && VerdictOf(rows, StudentsAssigned) == Some(f.teams.Some? && f.teams.value.allAssigned)
  {
    var rr, cr, er := Parts(u, a, assignmentType, isMassive, f);
    VerdictOfPart(rr, cr, er, er, 0);
    VerdictOfPart(rr, cr, er, er, 1);
    VerdictOfPart(rr, cr, er, er, 2);
    VerdictOfPart(rr, cr, er, er, 3);
    VerdictOfPart(rr, cr, er, er, 4);
  }

  /** A massive course analyses its final work as a final quiz, with the same result as asking
      for "quiz_final" directly; no other type is renamed. */
  lemma MassiveFinalWorkIsQuiz(u: Unicode, a: Assignment, assignmentType: string, isMassive: bool, f: Fetched)
    ensures Analyze(u, a, FINALWORK, true, f) == Analyze(u, a, QUIZ_FINAL, true, f)
    ensures EffectiveType(assignmentType, isMassive) != assignmentType <==> isMassive && assignmentType == FINALWORK
  {
  }

  // ---------------------------------------------------------------------------
  // The missing "name" key
  // ---------------------------------------------------------------------------

  /** As written, every assignment without a rubric makes `analyze_assignment` raise
      `KeyError('name')`, unless it is analysed as a final quiz; otherwise the two versions
      agree. */
  lemma AsWrittenRaisesWithoutRubric(u: Unicode, a: Assignment, assignmentType: string, isMassive: bool, f: Fetched)
    ensures AnalyzeAsWritten(u, a, assignmentType, isMassive, f) ==
      if EffectiveType(assignmentType, isMassive) != QUIZ_FINAL && a.rubricSettings.None?
      then Err(KeyError("name"))
      else Analyze(u, a, assignmentType, isMassive, f)
  {
  }

  /** A well-formed forum without a rubric: the code as written raises, while the corrected
      analysis returns a checklist whose "Tiene rubrica" row fails. */
  lemma RubriclessForumWitness(u: Unicode, f: Fetched)
    requires f.moduleInfo == Some(ModuleInfo(Some("Foro"), Some(20)))
    ensures var a := Assignment(Some("Foro"), Some(["discussion_topic"]), Some(-1), Some(100), Some("points"),
                                None, None, false, Topic(Some("threaded")));
      && AnalyzeAsWritten(u, a, FORUM, false, f) == Err(KeyError("name"))
      && Analyze(u, a, FORUM, false, f).Ok?
      && VerdictOf(Analyze(u, a, FORUM, false, f).value, HasRubric) == Some(false)
  {
    var a := Assignment(Some("Foro"), Some(["discussion_topic"]), Some(-1), Some(100), Some("points"),
                        None, None, false, Topic(Some("threaded")));
    AsWrittenRaisesWithoutRubric(u, a, FORUM, false, f);
    RubricVerdicts(u, a, FORUM, false, f);
  }

  // ---------------------------------------------------------------------------
  // Across the team checks
  // ---------------------------------------------------------------------------

  /** A teamwork assignment in a course whose categories do not include "Equipo de trabajo"
      always raises: the team check reports "not created" without the `unassigned_students`
      key, and the "Alumnos Asignados" row reads it. */
  lemma NoTeamCategoryRaises(
    u: Unicode, a: Assignment, isMassive: bool, moduleInfo: Option<ModuleInfo>,
    cats: seq<GroupCategory>, groupsOf: int -> Option<seq<Group>>,
    students: Option<seq<Student>>, membershipsOf: int -> Option<seq<Membership>>)
    requires cats != []
    requires forall j :: 0 <= j < |cats| ==> cats[j].name != Some(TEAM_CATEGORY)
    ensures Analyze(u, a, TEAMWORK, isMassive,
      Fetched(moduleInfo, CheckGroupCategories(Some(cats)), CheckTeamAssignments(Some(cats), groupsOf, students, membershipsOf))).Err?
  {
    assert CheckTeamAssignments(Some(cats), groupsOf, students, membershipsOf) == Some(NOT_CREATED);
  }

  /** When every student of the course is in a team, the teamwork rows never raise. */
  lemma AllAssignedTeamworkRows(a: Assignment, categories: seq<GroupCategory>, groupsOf: int -> Option<seq<Group>>,
                                students: Option<seq<Student>>, membershipsOf: int -> Option<seq<Membership>>)
    requires CheckTeamAssignments(Some(categories), groupsOf, students, membershipsOf).Some?
    requires CheckTeamAssignments(Some(categories), groupsOf, students, membershipsOf).value.allAssigned
    ensures TeamworkRows(a, CheckGroupCategories(Some(categories)), CheckTeamAssignments(Some(categories), groupsOf, students, membershipsOf)).Ok?
  {
  }

  /** What the caller shows: for a successful analysis, the status column has a check mark
      exactly where the row passed, and the table gives each label its actual value. */
  lemma ReportFaithful(u: Unicode, a: Assignment, assignmentType: string, isMassive: bool, f: Fetched)
    requires !Crashes(a, EffectiveType(assignmentType, isMassive), f)
    ensures var rows := Analyze(u, a, assignmentType, isMassive, f).value;
      var rep := AnalyzeAssignment(u, a, assignmentType, isMassive, f).value;
      && (forall k :: 0 <= k < |rows| ==> (rep.status[k] == Glyph(true) <==> rows[k].passed))
      && (forall k :: 0 <= k < |rows| ==> Lookup(rep.details, rows[k].item) == Some(rows[k].actual))
  {
    var rows := Analyze(u, a, assignmentType, isMassive, f).value;
    LayoutShape(EffectiveType(assignmentType, isMassive));
    ReportOfRows(rows);
  }

  lemma ReportOfRows(rows: seq<Row>)
    requires Distinct(Items(rows))
    ensures forall k :: 0 <= k < |rows| ==> (ToReport(rows).status[k] == Glyph(true) <==> rows[k].passed)
    ensures forall k :: 0 <= k < |rows| ==> Lookup(ToReport(rows).details, rows[k].item) == Some(rows[k].actual)
  {
    ReportRoundTrip(rows);
    forall k | 0 <= k < |rows|
      ensures Lookup(ToReport(rows).details, rows[k].item) == Some(rows[k].actual)
    {
      LookupAt(rows, k);
    }
  }
}

=== FILE: helpers.dfy ===
/** helpers.py: the name normaliser `clean_string` and the course-id tokenizer
    `parse_course_ids`. */
module Helpers {
  import opened Text

  /** The Unicode behaviour `clean_string` borrows from Python and its `unicodedata` and `re`
      libraries: full case mapping (`str.lower`), canonical decomposition (NFD) and the `\w`
      class. The model keeps them as parameters, so every fact proved below holds whatever
      these three functions are. */
  datatype Unicode = Unicode(lower: string -> string, nfd: string -> string, isWord: char -> bool)

  /** The block U+0300..U+036F of combining diacritical marks. */
  predicate IsCombiningMark(c: char) {
    '\U{0300}' <= c <= '\U{036F}'
  }

  /** The character class `[\w\s.,!?-]`. */
  predicate InKeptClass(u: Unicode, c: char) {
    u.isWord(c) || IsSpace(c) || c in ".,!?-"
  }

  /** A character that both substitutions of `clean_string` leave in place. */
  predicate Survives(u: Unicode, c: char) {
    InKeptClass(u, c) && !IsCombiningMark(c)
  }

  /** The text `clean_string` filters: stripped, lower-cased, then decomposed. */
  function Normalized(u: Unicode, s: string): string {
    u.nfd(u.lower(Strip(s)))
  }

  /** `clean_string(s)`: the normalised text with every character outside `[\w\s.,!?-]`
      deleted, then every combining mark deleted. It only deletes: the result keeps, in
      order and with their multiplicity, exactly the surviving characters. */
  function CleanString(u: Unicode, s: string): (r: string)
    ensures forall k :: 0 <= k < |r| ==> InKeptClass(u, r[k]) && !IsCombiningMark(r[k])
    ensures IsSubsequence(r, Normalized(u, s))
    ensures forall c :: Survives(u, c) ==> multiset(r)[c] == multiset(Normalized(u, s))[c]
  {
    CleanText(u, Normalized(u, s))
  }

  /** The two substitutions of `clean_string`, applied to the normalised text `n`. */
  function CleanText(u: Unicode, n: string): (r: string)
    ensures forall k :: 0 <= k < |r| ==> InKeptClass(u, r[k]) && !IsCombiningMark(r[k])
    ensures IsSubsequence(r, n)
    ensures forall c :: Survives(u, c) ==> multiset(r)[c] == multiset(n)[c]
  {
    var r := Filter(NotMark, Filter(KeptTest(u), n));
    FilterFilter(KeptTest(u), NotMark, SurvivesTest(u), n);
    assert forall k :: 0 <= k < |r| ==> SurvivesTest(u)(r[k]);
    r
  }

  /** The first substitution's test, `[\w\s.,!?-]`. */
  function KeptTest(u: Unicode): char -> bool {
    c => InKeptClass(u, c)
  }

  /** The second substitution's test. */
  predicate NotMark(c: char) {
    !IsCombiningMark(c)
  }

  function SurvivesTest(u: Unicode): char -> bool {
    c => Survives(u, c)
  }

  /** `clean_string` is not idempotent: a leading character outside the kept class can
      uncover whitespace that the first `strip()` could not see, and the second call strips
      it. With Python's own `lower`, NFD and `\w`, the input "¡ a" cleans to " a", which
      cleans to "a". */
  lemma CleanStringNotIdempotent(u: Unicode)
    requires u.lower("\U{A1} a") == "\U{A1} a" && u.nfd("\U{A1} a") == "\U{A1} a"
    requires u.lower("a") == "a" && u.nfd("a") == "a"
    requires !u.isWord('\U{A1}') && u.isWord('a')
    ensures CleanString(u, "\U{A1} a") == " a"
    ensures CleanString(u, CleanString(u, "\U{A1} a")) == "a"
  {
    CleanStringOfInvertedBang(u);
    CleanStringOfSpaceA(u);
  }

  lemma CleanStringOfInvertedBang(u: Unicode)
    requires u.lower("\U{A1} a") == "\U{A1} a" && u.nfd("\U{A1} a") == "\U{A1} a"
    requires !u.isWord('\U{A1}') && u.isWord('a')
    ensures CleanString(u, "\U{A1} a") == " a"
  {
    var s := "\U{A1} a";
    NormalizedInvertedBang(u);
    var r := CleanText(u, s);
    assert CleanString(u, s) == r;
    InvertedBangCounts();
    assert Survives(u, ' ') && Survives(u, 'a');
    CleanedInvertedBang(u, r);
  }

  lemma InvertedBangCounts()
    ensures multiset("\U{A1} a")[' '] == 1 && multiset("\U{A1} a")['a'] == 1
  {
    assert "\U{A1} a" == ['\U{A1}'] + [' '] + ['a'];
  }

  lemma NormalizedInvertedBang(u: Unicode)
    requires u.lower("\U{A1} a") == "\U{A1} a" && u.nfd("\U{A1} a") == "\U{A1} a"
    ensures Normalized(u, "\U{A1} a") == "\U{A1} a"
  {
    assert !IsSpace('\U{A1}') && !IsSpace('a');
    StripStripped("\U{A1} a");
  }

  lemma CleanedInvertedBang(u: Unicode, r: string)
    requires !u.isWord('\U{A1}')
    requires forall k :: 0 <= k < |r| ==> InKeptClass(u, r[k])
    requires IsSubsequence(r, "\U{A1} a")
    requires multiset(r)[' '] == 1 && multiset(r)['a'] == 1
    ensures r == " a"
  {
    SkipsInvertedBang(u, r);
    SpaceAOnly(r);
  }

  /** `r` cannot use the leading "¡", which is outside the kept class. */
  lemma SkipsInvertedBang(u: Unicode, r: string)
    requires !u.isWord('\U{A1}')
    requires forall k :: 0 <= k < |r| ==> InKeptClass(u, r[k])
    requires IsSubsequence(r, "\U{A1} a")
    requires |r| > 0
    ensures IsSubsequence(r, " a")
  {
    var s := "\U{A1} a";
    assert !InKeptClass(u, '\U{A1}');
    assert r[0] != s[0];
    assert s[1..] == " a";
  }

  /** A subsequence of " a" with one space and one "a" is " a" itself. */
  lemma SpaceAOnly(r: string)
    requires IsSubsequence(r, " a")
    requires multiset(r)[' '] == 1 && multiset(r)['a'] == 1
    ensures r == " a"
  {
    SubsequenceLength(r, " a");
    assert |r| == 2 by {
      assert multiset{' ', 'a'} <= multiset(r);
    }
    SubsequenceSameLength(r, " a");
  }

  lemma CleanStringOfSpaceA(u: Unicode)
    requires u.lower("a") == "a" && u.nfd("a") == "a"
    requires u.isWord('a')
    ensures CleanString(u, " a") == "a"
  {
    StripSpaceA();
    assert Normalized(u, " a") == "a";
    CleanTextOfA(u);
  }

  lemma StripSpaceA()
    ensures Strip(" a") == "a"
  {
    assert " a" == [' '] + "a";
    StripLeadingSpace(' ', "a");
    StripStripped("a");
  }

  lemma CleanTextOfA(u: Unicode)
    requires u.isWord('a')
    ensures CleanText(u, "a") == "a"
  {
    var r := CleanText(u, "a");
    assert Survives(u, 'a');
    assert multiset(r)['a'] == 1;
    SubsequenceLength(r, "a");
    SubsequenceSameLength(r, "a");
  }

  // ---------------------------------------------------------------------------
  // parse_course_ids
  // ---------------------------------------------------------------------------

  /** What `parse_course_ids` can return: a non-empty, already stripped token without the
      three separators. */
  predicate IsCourseId(id: string) {
    id != "" && IsStripped(id) && ',' !in id && ' ' !in id && '\n' !in id
  }

  /** Input with nothing but commas and whitespace. */
  predicate OnlySeparators(s: string) {
    forall k :: 0 <= k < |s| ==> s[k] == ',' || IsSpace(s[k])
  }

  /** The text after commas and spaces have been turned into newlines. */
  function SeparatorsToNewlines(s: string): string {
    Replace(Replace(s, ',', '\n'), ' ', '\n')
  }

  predicate NonEmpty(id: string) {
    id != ""
  }

  function StripAll(pieces: seq<string>): (r: seq<string>)
    ensures |r| == |pieces|
    ensures forall k :: 0 <= k < |r| ==> r[k] == Strip(pieces[k])
  {
    Map(Strip, pieces)
  }

  /** `parse_course_ids(text)`: commas and spaces become newlines, the text is split at
      newlines, every piece is stripped and the empty pieces are dropped. The ids come back
      in input order and a repeated id is kept every time it occurs. */
  function ParseCourseIds(text: string): (ids: seq<string>)
    ensures forall k :: 0 <= k < |ids| ==> IsCourseId(ids[k])
    ensures forall k :: 0 <= k < |ids| ==> Strip(ids[k]) == ids[k]
    ensures OnlySeparators(text) ==> ids == []
  {
    var cleaned := SeparatorsToNewlines(text);
    var pieces := Split(cleaned, '\n');
    var stripped := StripAll(pieces);
    var ids := Filter(NonEmpty, stripped);
    ParsedIdsWellFormed(text, cleaned, pieces, stripped, ids);
    ids
  }

  lemma SeparatorsGone(text: string)
    ensures forall c :: c in SeparatorsToNewlines(text) ==> c != ',' && c != ' '
    ensures OnlySeparators(text) ==> forall c :: c in SeparatorsToNewlines(text) ==> IsSpace(c)
  {
  }

  lemma StrippedPieceWellFormed(piece: string)
    requires ',' !in piece && ' ' !in piece && '\n' !in piece
    ensures IsStripped(Strip(piece))
    ensures ',' !in Strip(piece) && ' ' !in Strip(piece) && '\n' !in Strip(piece)
  {
    var r := Strip(piece);
    assert forall k :: 0 <= k < |r| ==> r[k] in piece;
  }

  /** A piece of the split text, once stripped, is a course id or empty; it is empty when the
      text holds nothing but separators. */
  lemma PieceOfCleaned(text: string, piece: string)
    requires '\n' !in piece
    requires forall c :: c in piece ==> c in SeparatorsToNewlines(text)
    ensures IsStripped(Strip(piece))
    ensures ',' !in Strip(piece) && ' ' !in Strip(piece) && '\n' !in Strip(piece)
    ensures OnlySeparators(text) ==> Strip(piece) == ""
  {
    SeparatorsGone(text);
    StrippedPieceWellFormed(piece);
    if OnlySeparators(text) {
      assert AllSpace(piece) by {
        forall k | 0 <= k < |piece| ensures IsSpace(piece[k]) {
          assert piece[k] in piece;
        }
      }
      StripAllSpace(piece);
    }
  }

  lemma StrippedPiecesWellFormed(text: string, pieces: seq<string>)
    requires pieces == Split(SeparatorsToNewlines(text), '\n')
    ensures forall k :: 0 <= k < |pieces| ==> IsStripped(Strip(pieces[k]))
    ensures forall k :: 0 <= k < |pieces| ==>
      ',' !in Strip(pieces[k]) && ' ' !in Strip(pieces[k]) && '\n' !in Strip(pieces[k])
    ensures OnlySeparators(text) ==> forall k :: 0 <= k < |pieces| ==> Strip(pieces[k]) == ""
  {
    forall k | 0 <= k < |pieces|
      ensures IsStripped(Strip(pieces[k]))
      ensures ',' !in Strip(pieces[k]) && ' ' !in Strip(pieces[k]) && '\n' !in Strip(pieces[k])
      ensures OnlySeparators(text) ==> Strip(pieces[k]) == ""
    {
      PieceOfCleaned(text, pieces[k]);
    }
  }

  lemma ParsedIdsWellFormed(text: string, cleaned: string, pieces: seq<string>, stripped: seq<string>, ids: seq<string>)
    requires cleaned == SeparatorsToNewlines(text)
    requires pieces == Split(cleaned, '\n')
    requires stripped == StripAll(pieces)
    requires ids == Filter(NonEmpty, stripped)
    ensures forall k :: 0 <= k < |ids| ==> IsCourseId(ids[k])
    ensures forall k :: 0 <= k < |ids| ==> Strip(ids[k]) == ids[k]
    ensures OnlySeparators(text) ==> ids == []
  {
    StrippedPiecesWellFormed(text, pieces);
    forall k | 0 <= k < |ids|
      ensures IsCourseId(ids[k]) && Strip(ids[k]) == ids[k]
    {
      assert ids[k] in stripped;
      StripStripped(ids[k]);
    }
  }

  /** The ids of text with a separator in it are the ids before it followed by the ids after
      it. With `ParsePiece` this fixes the result for any input: the ids are the stripped,
      non-empty runs between separators, in input order, repeats included. */
  lemma ParseAppend(a: string, sep: char, b: string)
    requires sep == ',' || sep == ' ' || sep == '\n'
    ensures ParseCourseIds(a + [sep] + b) == ParseCourseIds(a) + ParseCourseIds(b)
  {
    var ca, cb := SeparatorsToNewlines(a), SeparatorsToNewlines(b);
    ParseCourseIdsSteps(a + [sep] + b);
    ParseCourseIdsSteps(a);
    ParseCourseIdsSteps(b);
    SeparatorsAppend(a, sep, b);
    SplitAppend(ca, '\n', cb);
    var pa, pb := Split(ca, '\n'), Split(cb, '\n');
    StripAllAppend(pa, pb);
    FilterAppend(NonEmpty, StripAll(pa), StripAll(pb));
  }

  /** A run without separators yields its stripped text as the one id, or nothing when it
      is blank. */
  lemma ParsePiece(p: string)
    requires ',' !in p && ' ' !in p && '\n' !in p
    ensures ParseCourseIds(p) == if Strip(p) == "" then [] else [Strip(p)]
  {
    ParseCourseIdsSteps(p);
    NoSeparatorsToReplace(p);
    SplitNoSeparator(p, '\n');
    var stripped := StripAll([p]);
    assert stripped == [Strip(p)];
    KeepOneIfNonEmpty(Strip(p));
  }

  /** Two ids with two separators between them, as in "1, 2" or "1,,2": the empty piece
      between the separators adds nothing. */
  lemma ParseSeparatorPair(x: string, s1: char, s2: char, y: string)
    requires IsCourseId(x) && IsCourseId(y)
    requires s1 == ',' || s1 == ' ' || s1 == '\n'
    requires s2 == ',' || s2 == ' ' || s2 == '\n'
    ensures ParseCourseIds(x + [s1] + ([s2] + y)) == [x] + [y]
  {
    ParseAppend(x, s1, [s2] + y);
    var l, r := ParseCourseIds(x), ParseCourseIds([s2] + y);
    ParseLeadingSeparator(s2, y);
    ParseId(x);
    assert l == [x] && r == [y];
  }

  /** A separator in front of an id adds nothing. */
  lemma ParseLeadingSeparator(sep: char, y: string)
    requires IsCourseId(y)
    requires sep == ',' || sep == ' ' || sep == '\n'
    ensures ParseCourseIds([sep] + y) == [y]
  {
    var e: string := [];
    assert [sep] + y == e + [sep] + y;
    ParseAppend(e, sep, y);
    var l, r := ParseCourseIds(e), ParseCourseIds(y);
    assert OnlySeparators(e);
    ParseId(y);
    assert l == [] && r == [y];
  }

  /** A well-formed id parses to itself. */
  lemma ParseId(x: string)
    requires IsCourseId(x)
    ensures ParseCourseIds(x) == [x]
  {
    ParsePiece(x);
    StripStripped(x);
  }

  lemma NoSeparatorsToReplace(p: string)
    requires ',' !in p && ' ' !in p
    ensures SeparatorsToNewlines(p) == p
  {
    assert Replace(p, ',', '\n') == p;
  }

  lemma KeepOneIfNonEmpty(q: string)
    ensures Filter(NonEmpty, [q]) == if q == "" then [] else [q]
  {
    FilterCons(NonEmpty, [q]);
    assert [q][1..] == [];
  }

  lemma SeparatorsAppend(a: string, sep: char, b: string)
    requires sep == ',' || sep == ' ' || sep == '\n'
    ensures SeparatorsToNewlines(a + [sep] + b) == SeparatorsToNewlines(a) + ['\n'] + SeparatorsToNewlines(b)
  {
    var l, r := SeparatorsToNewlines(a + [sep] + b), SeparatorsToNewlines(a) + ['\n'] + SeparatorsToNewlines(b);
    var s := a + [sep] + b;
    forall k | 0 <= k < |l|
      ensures l[k] == r[k]
    {
      if k < |a| {
        assert s[k] == a[k];
      } else if k > |a| {
        assert s[k] == b[k - |a| - 1];
      }
    }
  }

  lemma StripAllAppend(xs: seq<string>, ys: seq<string>)
    ensures StripAll(xs + ys) == StripAll(xs) + StripAll(ys)
  {
    MapAppend(Strip, xs, ys);
  }

  lemma ParseCourseIdsSteps(text: string)
    ensures ParseCourseIds(text) == Filter(NonEmpty, StripAll(Split(SeparatorsToNewlines(text), '\n')))
  {
  }

  lemma SeparatorsOfJoin(ids: seq<string>, sep: char)
    requires sep == ',' || sep == ' ' || sep == '\n'
    requires forall k :: 0 <= k < |ids| ==> IsCourseId(ids[k])
    ensures SeparatorsToNewlines(Join(ids, sep)) == Join(ids, '\n')
  {
    ReplaceJoin(ids, sep, ',', '\n');
    ReplaceJoin(ids, if sep == ',' then '\n' else sep, ' ', '\n');
  }

  lemma ParseEmptyJoin()
    ensures Filter(NonEmpty, StripAll(Split(Join([], '\n'), '\n'))) == []
  {
    assert Split("", '\n') == [""];
    assert StripAll([""]) == [""];
    KeepOneIfNonEmpty("");
  }

  lemma ParseNewlineJoined(ids: seq<string>)
    requires forall k :: 0 <= k < |ids| ==> IsCourseId(ids[k])
    requires |ids| > 0
    ensures Filter(NonEmpty, StripAll(Split(Join(ids, '\n'), '\n'))) == ids
  {
    SplitJoin(ids, '\n');
    forall k | 0 <= k < |ids|
      ensures Strip(ids[k]) == ids[k]
    {
      StripStripped(ids[k]);
    }
    assert StripAll(ids) == ids;
    FilterAll(NonEmpty, ids);
  }

  /** Round trip: any list of well-formed ids, written out with one kind of separator, parses
      back to that same list — order kept, duplicates kept, nothing added. */
  lemma ParseJoinedIds(ids: seq<string>, sep: char)
    requires sep == ',' || sep == ' ' || sep == '\n'
    requires forall k :: 0 <= k < |ids| ==> IsCourseId(ids[k])
    ensures ParseCourseIds(Join(ids, sep)) == ids
  {
    ParseCourseIdsSteps(Join(ids, sep));
    SeparatorsOfJoin(ids, sep);
    if |ids| == 0 {
      ParseEmptyJoin();
    } else {
      ParseNewlineJoined(ids);
    }
  }
}

=== FILE: review.dfy ===
/** main.py, the "Revisar" run over one course: refusing blank input, deciding whether the
    course belongs to a massive programme, picking the forum, teamwork and final assignments by
    name, and analysing each of them under its type, in that order. The LMS answers (the
    sub-account name, the assignment list, what `analyze_assignment` fetches per assignment) are
    inputs; the page output is left out. */
module Review {
  import opened Wrappers
  import opened Text
  import opened Helpers
  import opened Canvas
  import opened Checklist

  const MASSIVE_SUBACCOUNT := "Diplomado Masivo"
  const FORUM_MARK := "foro academico"
  const TEAMWORK_MARK := "trabajo en equipo"
  const TEAM_TASK_MARK := "tarea en equipo"
  const FINAL_MARK := "trabajo final"
  const FINAL_QUIZ_MARK := "cuestionario final"

  // ---------------------------------------------------------------------------
  // Input guard
  // ---------------------------------------------------------------------------

  /** The ids to review: `None` (an error message on the page) when the input is blank. */
  function CourseIdsToReview(text: string): (r: Option<seq<string>>)
    ensures r.None? <==> AllSpace(text)
    ensures r.Some? ==> forall k :: 0 <= k < |r.value| ==> IsCourseId(r.value[k])
  {
    StripEmptyIffAllSpace(text);
    if Strip(text) == "" then None else Some(ParseCourseIds(text))
  }

  lemma StripEmptyIffAllSpace(s: string)
    ensures Strip(s) == "" <==> AllSpace(s)
  {
    if AllSpace(s) {
      StripAllSpace(s);
    }
    var r := Strip(s);
    if r == "" {
      assert TrimmedFrom(r, s);
      var i :| 0 <= i <= |s| - |r| && s[i..i + |r|] == r && AllSpace(s[..i]) && AllSpace(s[i + |r|..]);
      forall k | 0 <= k < |s|
        ensures IsSpace(s[k])
      {
        if k < i {
          assert s[k] == s[..i][k];
        } else {
          assert s[k] == s[i..][k - i];
        }
      }
    }
  }

  /** Blank input never reaches the parser, but input made only of commas and whitespace, with
      at least one comma, gets through the guard and yields no course at all. */
  lemma CommasOnlyReviewsNothing(text: string)
    requires OnlySeparators(text) && !AllSpace(text)
    ensures CourseIdsToReview(text) == Some([])
  {
    StripEmptyIffAllSpace(text);
  }

  // ---------------------------------------------------------------------------
  // Massive courses
  // ---------------------------------------------------------------------------

  /** Whether the course is part of a massive programme: the cleaned sub-account name contains
      the cleaned "Diplomado Masivo". A sub-account without a name makes `clean_string` raise. */
  function IsMassive(u: Unicode, subaccountName: Option<string>): (r: Result<bool, Crash>)
    ensures r.Err? <==> subaccountName.None?
    ensures r.Ok? ==>
      (r.value <==> exists i :: OccursAt(CleanString(u, MASSIVE_SUBACCOUNT), CleanString(u, subaccountName.value), i))
  {
    if subaccountName.None? then Err(AttributeOfNone("subaccount name"))
    else Ok(Contains(CleanString(u, subaccountName.value), CleanString(u, MASSIVE_SUBACCOUNT)))
  }

  // ---------------------------------------------------------------------------
  // Selecting assignments by name
  // ---------------------------------------------------------------------------

  /** The lower-cased, cleaned assignment name contains `mark`. */
  predicate NameHas(u: Unicode, a: Assignment, mark: string) {
    a.name.Some? && Contains(CleanString(u, u.lower(a.name.value)), mark)
  }

  predicate IsForum(u: Unicode, a: Assignment) {
    NameHas(u, a, FORUM_MARK)
  }

  predicate IsTeamwork(u: Unicode, a: Assignment) {
    NameHas(u, a, TEAMWORK_MARK) || NameHas(u, a, TEAM_TASK_MARK)
  }

  /** A final assignment is called "trabajo final", or "cuestionario final" in a massive course. */
  predicate IsFinal(u: Unicode, a: Assignment, isMassive: bool) {
    NameHas(u, a, if isMassive then FINAL_QUIZ_MARK else FINAL_MARK)
  }

  /** The three name tests of the run. */
  datatype Kind = ForumKind | TeamworkKind | FinalKind

  predicate Matches(u: Unicode, a: Assignment, kind: Kind, isMassive: bool) {
    match kind
    case ForumKind => IsForum(u, a)
    case TeamworkKind => IsTeamwork(u, a)
    case FinalKind => IsFinal(u, a, isMassive)
  }

  /** One list comprehension over the course's assignments: the members of `xs` whose name
      passes the test of `kind`, in their order and each as often as it occurs there. */
  function Select(u: Unicode, xs: seq<Assignment>, kind: Kind, isMassive: bool): (part: seq<Assignment>)
    ensures IsSubsequence(part, xs)
    ensures forall a :: a in part <==> a in xs && Matches(u, a, kind, isMassive)
    ensures forall a :: Matches(u, a, kind, isMassive) ==> multiset(part)[a] == multiset(xs)[a]
  {
    Filter(a => Matches(u, a, kind, isMassive), xs)
  }

  datatype Selection = Selection(forum: seq<Assignment>, teamwork: seq<Assignment>, final: seq<Assignment>)

  /** Some assignment has no name: the name tests raise on it. */
  predicate SomeUnnamed(assignments: seq<Assignment>) {
    exists k :: 0 <= k < |assignments| && assignments[k].name.None?
  }

  /** The three lists of assignments to review. The first comprehension reads the name of every
      assignment, so one without a name makes the run raise. An assignment whose name matches
      several tests is in several lists. */
  function SelectAssignments(u: Unicode, assignments: seq<Assignment>, isMassive: bool): (r: Result<Selection, Crash>)
    ensures r.Err? <==> SomeUnnamed(assignments)
    ensures r.Ok? ==>
      && IsSubsequence(r.value.forum, assignments)
      && IsSubsequence(r.value.teamwork, assignments)
      && IsSubsequence(r.value.final, assignments)
    ensures r.Ok? ==> forall a :: a in r.value.forum <==> a in assignments && NameHas(u, a, FORUM_MARK)
    ensures r.Ok? ==> forall a :: a in r.value.teamwork <==>
      a in assignments && (NameHas(u, a, TEAMWORK_MARK) || NameHas(u, a, TEAM_TASK_MARK))
    ensures r.Ok? ==> forall a :: a in r.value.final <==>
      a in assignments && NameHas(u, a, if isMassive then FINAL_QUIZ_MARK else FINAL_MARK)
    ensures r.Ok? ==> r.value == Selection(
      Select(u, assignments, ForumKind, isMassive),
      Select(u, assignments, TeamworkKind, isMassive),
      Select(u, assignments, FinalKind, isMassive))
  {
    if SomeUnnamed(assignments) then Err(AttributeOfNone("assignment name"))
    else Ok(Selection(
      Select(u, assignments, ForumKind, isMassive),
      Select(u, assignments, TeamworkKind, isMassive),
      Select(u, assignments, FinalKind, isMassive)))
  }

  // ---------------------------------------------------------------------------
  // Reviewing the selected assignments
  // ---------------------------------------------------------------------------

  /** One call of `analyze_assignment`: the assignment and the type it is analysed under. */
  datatype Planned = Planned(assignment: Assignment, assignmentType: string)

  function Tagged(xs: seq<Assignment>, t: string): (r: seq<Planned>)
    ensures |r| == |xs|
    ensures forall k :: 0 <= k < |xs| ==> r[k] == Planned(xs[k], t)
  {
    seq(|xs|, k requires 0 <= k < |xs| => Planned(xs[k], t))
  }

  /** The forum assignments as "forum", then the teamwork ones as "teamwork", then the final
      ones as "finalwork" — also in a massive course, where `analyze_assignment` turns that tag
      into "quiz_final". */
  function Plan(sel: Selection): (plan: seq<Planned>)
    ensures |plan| == |sel.forum| + |sel.teamwork| + |sel.final|
    ensures forall k :: 0 <= k < |sel.forum| ==> plan[k] == Planned(sel.forum[k], FORUM)
    ensures forall k :: 0 <= k < |sel.teamwork| ==> plan[|sel.forum| + k] == Planned(sel.teamwork[k], TEAMWORK)
    ensures forall k :: 0 <= k < |sel.final| ==>
      plan[|sel.forum| + |sel.teamwork| + k] == Planned(sel.final[k], FINALWORK)
  {
    Tagged(sel.forum, FORUM) + Tagged(sel.teamwork, TEAMWORK) + Tagged(sel.final, FINALWORK)
  }

  /** The analysis of one planned call, with `fetch` standing for the requests it makes. */
  function Outcome(u: Unicode, p: Planned, isMassive: bool, fetch: Assignment -> Fetched): Result<Report, Crash> {
    AnalyzeAssignment(u, p.assignment, p.assignmentType, isMassive, fetch(p.assignment))
  }

  /** Runs steps in order. The first one that raises ends the run with its error; otherwise
      there is one result per step. */
  function RunInOrder<T>(outcomes: seq<Result<T, Crash>>): (r: Result<seq<T>, Crash>)
    ensures r.Ok? ==> |r.value| == |outcomes|
    ensures r.Ok? ==> forall k :: 0 <= k < |outcomes| ==> outcomes[k] == Ok(r.value[k])
    ensures r.Err? <==> exists k :: 0 <= k < |outcomes| && outcomes[k].Err?
    ensures r.Err? ==> exists k :: && 0 <= k < |outcomes|
                                   && outcomes[k] == Err(r.error)
                                   && forall j :: 0 <= j < k ==> outcomes[j].Ok?
    decreases |outcomes|
  {
    if |outcomes| == 0 then Ok([])
    else if outcomes[0].Err? then Err(outcomes[0].error)
    else
      var rest := RunInOrder(outcomes[1..]);
      assert forall k :: 1 <= k < |outcomes| ==> outcomes[k] == outcomes[1..][k - 1];
      if rest.Err? then
        var k :| && 0 <= k < |outcomes[1..]|
                 && outcomes[1..][k] == Err(rest.error)
                 && forall j :: 0 <= j < k ==> outcomes[1..][j].Ok?;
        assert outcomes[k + 1] == Err(rest.error);
        Err(rest.error)
      else
        Ok([outcomes[0].value] + rest.value)
  }

  /** The review of one course: select the assignments, then analyse them in plan order. */
  function ReviewCourse(u: Unicode, assignments: seq<Assignment>, isMassive: bool, fetch: Assignment -> Fetched): (r: Result<seq<Report>, Crash>)
    ensures SomeUnnamed(assignments) ==> r.Err?
    ensures SelectAssignments(u, assignments, isMassive).Ok? ==>
      var plan := Plan(SelectAssignments(u, assignments, isMassive).value);
      && (r.Ok? ==> |r.value| == |plan| && forall k :: 0 <= k < |plan| ==> Outcome(u, plan[k], isMassive, fetch) == Ok(r.value[k]))
      && (r.Err? <==> exists k :: 0 <= k < |plan| && Outcome(u, plan[k], isMassive, fetch).Err?)
  {
    var sel :- SelectAssignments(u, assignments, isMassive);
    RunPlan(u, Plan(sel), isMassive, fetch)
  }

  /** The planned analyses, run in order. */
  function RunPlan(u: Unicode, plan: seq<Planned>, isMassive: bool, fetch: Assignment -> Fetched): (r: Result<seq<Report>, Crash>)
    ensures r.Ok? ==> |r.value| == |plan| && forall k :: 0 <= k < |plan| ==> Outcome(u, plan[k], isMassive, fetch) == Ok(r.value[k])
    ensures r.Err? <==> exists k :: 0 <= k < |plan| && Outcome(u, plan[k], isMassive, fetch).Err?
  {
    RunInOrder(Outcomes(u, plan, isMassive, fetch))
  }

  function Outcomes(u: Unicode, plan: seq<Planned>, isMassive: bool, fetch: Assignment -> Fetched): (os: seq<Result<Report, Crash>>)
    ensures |os| == |plan|
    ensures forall k :: 0 <= k < |plan| ==> os[k] == Outcome(u, plan[k], isMassive, fetch)
  {
    seq(|plan|, k requires 0 <= k < |plan| => Outcome(u, plan[k], isMassive, fetch))
  }

  // ---------------------------------------------------------------------------
  // What gets reviewed, and as what
  // ---------------------------------------------------------------------------

  /** A planned call pairs an assignment with a type exactly when its name selects it for that
      type: forum assignments as "forum", teamwork assignments as "teamwork", final ones (a
      "cuestionario final" in a massive course, a "trabajo final" otherwise) as "finalwork". */
  lemma {:induction false} PlanMatchesNames(u: Unicode, assignments: seq<Assignment>, isMassive: bool, a: Assignment)
    requires SelectAssignments(u, assignments, isMassive).Ok?
    ensures var plan := Plan(SelectAssignments(u, assignments, isMassive).value);
      && (Planned(a, FORUM) in plan <==> a in assignments && IsForum(u, a))
      && (Planned(a, TEAMWORK) in plan <==> a in assignments && IsTeamwork(u, a))
      && (Planned(a, FINALWORK) in plan <==> a in assignments && IsFinal(u, a, isMassive))
      && (forall p :: p in plan ==> p.assignmentType in {FORUM, TEAMWORK, FINALWORK})
  {
    PlanMembership(SelectAssignments(u, assignments, isMassive).value, a);
  }

  /** A planned call carries one of the three tags, and the tag says which list it came from. */
  lemma PlanMembership(sel: Selection, a: Assignment)
    ensures Planned(a, FORUM) in Plan(sel) <==> a in sel.forum
    ensures Planned(a, TEAMWORK) in Plan(sel) <==> a in sel.teamwork
    ensures Planned(a, FINALWORK) in Plan(sel) <==> a in sel.final
    ensures forall p :: p in Plan(sel) ==> p.assignmentType in {FORUM, TEAMWORK, FINALWORK}
  {
    var f, t, w := Tagged(sel.forum, FORUM), Tagged(sel.teamwork, TEAMWORK), Tagged(sel.final, FINALWORK);
    assert Plan(sel) == f + t + w;
    TaggedMembership(sel.forum, FORUM, a);
    TaggedMembership(sel.teamwork, TEAMWORK, a);
    TaggedMembership(sel.final, FINALWORK, a);
    assert FORUM != TEAMWORK && FORUM != FINALWORK && TEAMWORK != FINALWORK;
    assert Planned(a, FORUM) !in t + w;
    assert Planned(a, TEAMWORK) !in f + w;
    assert Planned(a, FINALWORK) !in f + t;
  }

  lemma TaggedMembership(xs: seq<Assignment>, t: string, a: Assignment)
    ensures Planned(a, t) in Tagged(xs, t) <==> a in xs
    ensures forall p :: p in Tagged(xs, t) ==> p.assignmentType == t
  {
    if a in xs {
      var k :| 0 <= k < |xs| && xs[k] == a;
      assert Tagged(xs, t)[k] == Planned(a, t);
    }
  }

  /** In a massive course the final assignments are held to the final-quiz rules: one online
      quiz attempt, 30 points, 30% weight and no rubric rows. In any other course they are held
      to the final-work rules. */
  lemma FinalAssignmentRules(u: Unicode, a: Assignment, isMassive: bool, f: Fetched)
    ensures AnalyzeAssignment(u, a, FINALWORK, isMassive, f)
      == AnalyzeAssignment(u, a, if isMassive then QUIZ_FINAL else FINALWORK, isMassive, f)
    ensures RuleFor(EffectiveType(FINALWORK, isMassive), isMassive)
      == if isMassive then Some(Rule(["online_quiz"], 1, 30, 30, None)) else Some(Rule(["online_upload"], 2, 100, 50, None))
  {
    MassiveFinalWorkIsQuiz(u, a, FINALWORK, isMassive, f);
  }
}

=== FILE: teams.dfy ===
/** functions.py, the group-category and team-roster checks (`check_group_categories`,
    `check_team_assignments`) applied to what the LMS returned. Each fetch is an input: `None`
    when the request failed, otherwise the parsed list. */
module Teams {
  import opened Wrappers
  import opened Canvas

  const TEAM_CATEGORY := "Equipo de trabajo"
  const PROJECT_GROUPS := "Project Groups"

  // ---------------------------------------------------------------------------
  // check_group_categories
  // ---------------------------------------------------------------------------

  /** `i` is the position of the first category called `name`. */
  predicate IsFirstNamed(cats: seq<GroupCategory>, name: string, i: int) {
    && 0 <= i < |cats|
    && cats[i].name == Some(name)
    && forall j :: 0 <= j < i ==> cats[j].name != Some(name)
  }

  /** Position of the first category called `name`, or `|cats|` when there is none. */
  function FirstNamedIndex(cats: seq<GroupCategory>, name: string): (k: nat)
    ensures k <= |cats|
    ensures k < |cats| ==> IsFirstNamed(cats, name, k)
    ensures k == |cats| ==> forall j :: 0 <= j < |cats| ==> cats[j].name != Some(name)
    decreases |cats|
  {
    if |cats| == 0 then 0
    else if cats[0].name == Some(name) then 0
    else
      var k := FirstNamedIndex(cats[1..], name);
      assert forall j :: 1 <= j < |cats| ==> cats[j] == cats[1..][j - 1];
      1 + k
  }

  /** `next((gc for gc in cats if gc.get("name") == name), None)`. */
  function FirstNamed(cats: seq<GroupCategory>, name: string): (r: Option<GroupCategory>)
    ensures r.None? <==> forall j :: 0 <= j < |cats| ==> cats[j].name != Some(name)
    ensures r.Some? ==> exists i :: IsFirstNamed(cats, name, i) && cats[i] == r.value
  {
    var k := FirstNamedIndex(cats, name);
    if k < |cats| then Some(cats[k]) else None
  }

  /** One entry of the `check_group_categories` result: whether the category exists and its id. */
  datatype CategoryStatus = CategoryStatus(found: bool, id: Option<int>)

  function StatusOf(cats: seq<GroupCategory>, name: string): (st: CategoryStatus)
    ensures st.found <==> exists j :: 0 <= j < |cats| && cats[j].name == Some(name)
    ensures st.found ==> exists i :: IsFirstNamed(cats, name, i) && st.id == Some(cats[i].id)
    ensures !st.found ==> st.id == None
  {
    match FirstNamed(cats, name)
    case None => CategoryStatus(false, None)
    case Some(gc) => CategoryStatus(true, Some(gc.id))
  }

  datatype CategoriesCheck = CategoriesCheck(teamCategory: CategoryStatus, projectGroups: CategoryStatus)

  /** `check_group_categories` on the fetched category list: `None` when the fetch failed,
      otherwise, for each of the two policy names, whether some category carries exactly that
      name and the id of the first one that does. */
  function CheckGroupCategories(fetched: Option<seq<GroupCategory>>): (r: Option<CategoriesCheck>)
    ensures r.None? <==> fetched.None?
    ensures r.Some? ==>
      && (r.value.teamCategory.found <==> exists j :: 0 <= j < |fetched.value| && fetched.value[j].name == Some(TEAM_CATEGORY))
      && (r.value.projectGroups.found <==> exists j :: 0 <= j < |fetched.value| && fetched.value[j].name == Some(PROJECT_GROUPS))
    ensures r.Some? && r.value.teamCategory.found ==>
      exists i :: IsFirstNamed(fetched.value, TEAM_CATEGORY, i) && r.value.teamCategory.id == Some(fetched.value[i].id)
    ensures r.Some? && r.value.projectGroups.found ==>
      exists i :: IsFirstNamed(fetched.value, PROJECT_GROUPS, i) && r.value.projectGroups.id == Some(fetched.value[i].id)
  {
    match fetched
    case None => None
    case Some(cats) => Some(CategoriesCheck(StatusOf(cats, TEAM_CATEGORY), StatusOf(cats, PROJECT_GROUPS)))
  }

  // ---------------------------------------------------------------------------
  // check_team_assignments
  // ---------------------------------------------------------------------------

  /** The `check_team_assignments` result. The early exits return a dict with only the two
      flags; `unassigned` and `totalStudents` are `None` there, standing for the missing keys. */
  datatype TeamsCheck = TeamsCheck(
    teamsCreated: bool,
    allAssigned: bool,
    unassigned: Option<set<int>>,
    totalStudents: Option<set<int>>)

  const NOT_CREATED := TeamsCheck(false, false, None, None)

  /** `uid` is the user of some membership in the fetched list. */
  predicate InMemberships(uid: int, ms: Option<seq<Membership>>) {
    ms.Some? && exists j :: 0 <= j < |ms.value| && ms.value[j].userId == Some(uid)
  }

  /** `uid` belongs to one of `groups`. */
  predicate IsMember(uid: int, groups: seq<Group>, membershipsOf: int -> Option<seq<Membership>>) {
    exists i :: 0 <= i < |groups| && InMemberships(uid, membershipsOf(groups[i].id))
  }

  function MemberIds(ms: Option<seq<Membership>>): (ids: set<int>)
    ensures forall uid :: uid in ids <==> InMemberships(uid, ms)
  {
    if ms.None? then {}
    else
      var ids := set m | m in ms.value && m.userId.Some? :: m.userId.value;
      assert forall uid :: InMemberships(uid, ms) ==> uid in ids by {
        forall uid | InMemberships(uid, ms)
          ensures uid in ids
        {
          var j :| 0 <= j < |ms.value| && ms.value[j].userId == Some(uid);
          assert ms.value[j] in ms.value;
        }
      }
      ids
  }

  /** The loop at functions.py:123-126: the union of the member ids of every group. */
  function AssignedIds(groups: seq<Group>, membershipsOf: int -> Option<seq<Membership>>): (ids: set<int>)
    ensures forall uid :: uid in ids <==> IsMember(uid, groups, membershipsOf)
    decreases |groups|
  {
    if |groups| == 0 then {}
    else
      var front := groups[..|groups| - 1];
      var ids := AssignedIds(front, membershipsOf) + MemberIds(membershipsOf(groups[|groups| - 1].id));
      assert forall i :: 0 <= i < |front| ==> front[i] == groups[i];
      assert forall uid :: IsMember(uid, groups, membershipsOf) ==> uid in ids by {
        forall uid | IsMember(uid, groups, membershipsOf)
          ensures uid in ids
        {
          var i :| 0 <= i < |groups| && InMemberships(uid, membershipsOf(groups[i].id));
          if i < |front| {
            assert IsMember(uid, front, membershipsOf);
          }
        }
      }
      ids
  }

  /** `{student["id"] for student in students_response}`: the id of every listed student, and
      nothing else. */
  function StudentIds(students: seq<Student>): (ids: set<int>)
    ensures forall uid :: uid in ids <==> exists k :: 0 <= k < |students| && students[k].id == uid
  {
    var ids := set s | s in students :: s.id;
    assert forall k :: 0 <= k < |students| ==> students[k].id in ids by {
      forall k | 0 <= k < |students|
        ensures students[k].id in ids
      {
        assert students[k] in students;
      }
    }
    ids
  }

  /** The students who are in no group: every one of them is a student, and a member of some
      group who is not a student never shows up. */
  function Unassigned(students: seq<Student>, groups: seq<Group>, membershipsOf: int -> Option<seq<Membership>>): (r: set<int>)
    ensures r <= StudentIds(students)
    ensures forall uid :: uid in r <==> uid in StudentIds(students) && !IsMember(uid, groups, membershipsOf)
  {
    StudentIds(students) - AssignedIds(groups, membershipsOf)
  }

  /** `check_team_assignments` on the fetched data: `categories` from the category list,
      `groupsOf(c)` from the group list of category `c`, `students` from the student list and
      `membershipsOf(g)` from the membership list of group `g`. */
  function CheckTeamAssignments(
    categories: Option<seq<GroupCategory>>,
    groupsOf: int -> Option<seq<Group>>,
    students: Option<seq<Student>>,
    membershipsOf: int -> Option<seq<Membership>>): (r: Option<TeamsCheck>)
    // no categories at all: nothing to report
    ensures (categories.None? || categories.value == []) ==> r.None?
    // categories, but none called "Equipo de trabajo": no teams
    ensures (categories.Some? && categories.value != [] && FirstNamed(categories.value, TEAM_CATEGORY).None?)
      ==> r == Some(NOT_CREATED)
    // the category exists but holds no groups: no teams
    ensures (categories.Some? && FirstNamed(categories.value, TEAM_CATEGORY).Some?
             && NoneOrEmpty(groupsOf(FirstNamed(categories.value, TEAM_CATEGORY).value.id)))
      ==> r == Some(NOT_CREATED)
    // teams exist but there are no students: nothing to report
    ensures (categories.Some? && FirstNamed(categories.value, TEAM_CATEGORY).Some?
             && !NoneOrEmpty(groupsOf(FirstNamed(categories.value, TEAM_CATEGORY).value.id))
             && NoneOrEmpty(students))
      ==> r.None?
    // otherwise the teams are created and the roster is compared with the groups of that category
    ensures (categories.Some? && FirstNamed(categories.value, TEAM_CATEGORY).Some?
             && !NoneOrEmpty(groupsOf(FirstNamed(categories.value, TEAM_CATEGORY).value.id))
             && !NoneOrEmpty(students))
      ==> r.Some? && r.value.teamsCreated
    ensures r.Some? && r.value.teamsCreated ==>
      && categories.Some?
      && FirstNamed(categories.value, TEAM_CATEGORY).Some?
      && var groups := groupsOf(FirstNamed(categories.value, TEAM_CATEGORY).value.id);
      && !NoneOrEmpty(groups)
      && !NoneOrEmpty(students)
      && r.value.totalStudents == Some(StudentIds(students.value))
      && r.value.unassigned.Some?
      && r.value.unassigned.value <= StudentIds(students.value)
      && (forall uid :: uid in r.value.unassigned.value <==>
            uid in StudentIds(students.value) && !IsMember(uid, groups.value, membershipsOf))
      && (r.value.allAssigned <==> r.value.unassigned.value == {})
    ensures r.Some? && !r.value.teamsCreated ==> r == Some(NOT_CREATED)
  {
    if NoneOrEmpty(categories) then None
    else
      match FirstNamed(categories.value, TEAM_CATEGORY)
      case None => Some(NOT_CREATED)
      case Some(team) =>
        var groups := groupsOf(team.id);
        if NoneOrEmpty(groups) then Some(NOT_CREATED)
        else if NoneOrEmpty(students) then None
        else
          var studentIds := StudentIds(students.value);
          var memberIds := AssignedIds(groups.value, membershipsOf);
          Some(TeamsCheck(true, studentIds <= memberIds, Some(Unassigned(students.value, groups.value, membershipsOf)), Some(studentIds)))
  }

  /** Python's falsiness of a fetched list: `None` or empty. */
  predicate NoneOrEmpty<T>(xs: Option<seq<T>>) {
    xs.None? || |xs.value| == 0
  }
}

=== FILE: text.dfy ===
/** The pieces of Python's `str` that the validator relies on, written out over `seq<char>`:
    whitespace, `strip()`, `split(sep)`, `sep.join`, single-character `replace`, the substring
    test `needle in hay`, `str(int)`, and list comprehensions with a filter. */
module Text {

  // ---------------------------------------------------------------------------
  // Whitespace and strip()
  // ---------------------------------------------------------------------------

  /** Python's `str.isspace()` on one character; `re`'s `\s` on `str` patterns and the
      argument-less `str.strip()` use the same set. */
  predicate IsSpace(c: char) {
    || ('\t' <= c <= '\r')
    || ('\U{1C}' <= c <= '\U{1F}')
    || c == ' '
    || c == '\U{85}'
    || c == '\U{A0}'
    || c == '\U{1680}'
    || ('\U{2000}' <= c <= '\U{200A}')
    || c == '\U{2028}'
    || c == '\U{2029}'
    || c == '\U{202F}'
    || c == '\U{205F}'
    || c == '\U{3000}'
  }

  predicate AllSpace(s: string) {
    forall i :: 0 <= i < |s| ==> IsSpace(s[i])
  }

  /** Neither end of `s` is whitespace. */
  predicate IsStripped(s: string) {
    |s| == 0 || (!IsSpace(s[0]) && !IsSpace(s[|s| - 1]))
  }

  /** `r` is what is left of `s` once a whitespace prefix and a whitespace suffix are cut off. */
  predicate TrimmedFrom(r: string, s: string) {
    exists i :: 0 <= i <= |s| - |r| && s[i..i + |r|] == r && AllSpace(s[..i]) && AllSpace(s[i + |r|..])
  }

  /** The end of the run of whitespace that starts `s`, searching from `i`. */
  function LeadingSpaces(s: string, i: nat): (n: nat)
    requires i <= |s|
    requires forall k :: 0 <= k < i ==> IsSpace(s[k])
    ensures i <= n <= |s|
    ensures forall k :: 0 <= k < n ==> IsSpace(s[k])
    ensures n == |s| || !IsSpace(s[n])
    decreases |s| - i
  {
    if i < |s| && IsSpace(s[i]) then LeadingSpaces(s, i + 1) else i
  }

  /** The start of the run of whitespace that ends `s`, searching down from `j`. */
  function TrailingSpaces(s: string, j: nat): (m: nat)
    requires j <= |s|
    requires forall k :: j <= k < |s| ==> IsSpace(s[k])
    ensures m <= j
    ensures forall k :: m <= k < |s| ==> IsSpace(s[k])
    ensures m == 0 || !IsSpace(s[m - 1])
    decreases j
  {
    if j > 0 && IsSpace(s[j - 1]) then TrailingSpaces(s, j - 1) else j
  }

  function StripLeft(s: string): (r: string)
    ensures |r| <= |s| && r == s[|s| - |r|..]
    ensures AllSpace(s[..|s| - |r|])
    ensures |r| == 0 || !IsSpace(r[0])
  {
    var n := LeadingSpaces(s, 0);
    assert forall k :: 0 <= k < n ==> s[..n][k] == s[k];
    s[n..]
  }

  function StripRight(s: string): (r: string)
    ensures |r| <= |s| && r == s[..|r|]
    ensures AllSpace(s[|r|..])
    ensures |r| == 0 || !IsSpace(r[|r| - 1])
  {
    var m := TrailingSpaces(s, |s|);
    assert forall k :: 0 <= k < |s| - m ==> s[m..][k] == s[m + k];
    s[..m]
  }

  /** Python's `s.strip()`. */
  function Strip(s: string): (r: string)
    ensures IsStripped(r)
    ensures TrimmedFrom(r, s)
    ensures forall k :: 0 <= k < |r| ==> r[k] in s
  {
    var l := StripLeft(s);
    var r := StripRight(l);
    StripSlices(s, l, r);
    r
  }

  lemma StripSlices(s: string, l: string, r: string)
    requires l == StripLeft(s) && r == StripRight(l)
    ensures TrimmedFrom(r, s)
    ensures forall k :: 0 <= k < |r| ==> r[k] in s
  {
    var i := |s| - |l|;
    assert l == s[i..] && r == l[..|r|];
    assert s[i..i + |r|] == r;
    assert s[i + |r|..] == l[|r|..];
    assert AllSpace(s[..i]) && AllSpace(s[i + |r|..]);
    forall k | 0 <= k < |r|
      ensures r[k] in s
    {
      assert r[k] == s[i + k];
    }
  }

  /** Stripping changes nothing once neither end is whitespace. */
  lemma StripStripped(s: string)
    requires IsStripped(s)
    ensures Strip(s) == s
  {
  }

  /** A leading whitespace character does not change what `strip()` returns. */
  lemma StripLeadingSpace(c: char, t: string)
    requires IsSpace(c)
    ensures Strip([c] + t) == Strip(t)
  {
    assert ([c] + t)[0] == c && ([c] + t)[1..] == t;
    assert StripLeft([c] + t) == StripLeft(t);
  }

  /** A string of whitespace strips to the empty string. */
  lemma StripAllSpace(s: string)
    requires AllSpace(s)
    ensures Strip(s) == []
  {
  }

  // ---------------------------------------------------------------------------
  // replace, split and join
  // ---------------------------------------------------------------------------

  /** Python's `s.replace(a, b)` for one-character `a` and `b`. */
  function Replace(s: string, a: char, b: char): (r: string)
    ensures |r| == |s|
    ensures forall k :: 0 <= k < |s| ==> r[k] == (if s[k] == a then b else s[k])
  {
    seq(|s|, k requires 0 <= k < |s| => if s[k] == a then b else s[k])
  }

  /** Python's `sep.join(parts)` for a one-character separator. */
  function Join(parts: seq<string>, sep: char): string
    decreases |parts|
  {
    if |parts| == 0 then ""
    else if |parts| == 1 then parts[0]
    else parts[0] + [sep] + Join(parts[1..], sep)
  }

  /** Python's `s.split(sep)` for a one-character separator: the pieces between separators,
      empty ones included, so `""` splits into `[""]`. */
  function Split(s: string, sep: char): (parts: seq<string>)
    ensures |parts| >= 1
    ensures forall k :: 0 <= k < |parts| ==> sep !in parts[k]
    ensures forall k :: 0 <= k < |parts| ==> forall c :: c in parts[k] ==> c in s
    ensures Join(parts, sep) == s
    decreases |s|
  {
    if |s| == 0 then [""]
    else
      var rest := Split(s[1..], sep);
      assert s == [s[0]] + s[1..];
      if s[0] == sep then
        assert Join([""] + rest, sep) == "" + [sep] + Join(rest, sep) by {
          assert ([""] + rest)[1..] == rest;
        }
        [""] + rest
      else
        var parts := [[s[0]] + rest[0]] + rest[1..];
        assert parts[1..] == rest[1..];
        assert Join(parts, sep) == [s[0]] + Join(rest, sep) by {
          if |rest| > 1 {
            assert rest == [rest[0]] + rest[1..];
            assert Join(rest, sep) == rest[0] + [sep] + Join(rest[1..], sep);
          }
        }
        assert forall c :: c in parts[0] ==> c == s[0] || c in rest[0];
        assert forall k :: 1 <= k < |parts| ==> parts[k] == rest[k];
        parts
  }

  /** Splitting a piece off the front. */
  lemma {:induction false} SplitAfterPiece(p: string, sep: char, t: string)
    requires sep !in p
    ensures Split(p + [sep] + t, sep) == [p] + Split(t, sep)
    decreases |p|
  {
    var s := p + [sep] + t;
    if |p| == 0 {
      assert s[1..] == t;
    } else {
      assert s[1..] == p[1..] + [sep] + t;
      SplitAfterPiece(p[1..], sep, t);
      assert [p[0]] + p[1..] == p;
    }
  }

  /** A string without the separator splits into itself. */
  lemma {:induction false} SplitNoSeparator(p: string, sep: char)
    requires sep !in p
    ensures Split(p, sep) == [p]
    decreases |p|
  {
    if |p| > 0 {
      SplitNoSeparator(p[1..], sep);
      assert [p[0]] + p[1..] == p;
    }
  }

  /** `split` undoes `join` when no piece contains the separator and there is at least one piece. */
  lemma {:induction false} SplitJoin(parts: seq<string>, sep: char)
    requires |parts| >= 1
    requires forall k :: 0 <= k < |parts| ==> sep !in parts[k]
    ensures Split(Join(parts, sep), sep) == parts
    decreases |parts|
  {
    if |parts| == 1 {
      SplitNoSeparator(parts[0], sep);
    } else {
      SplitJoin(parts[1..], sep);
      SplitAfterPiece(parts[0], sep, Join(parts[1..], sep));
      assert [parts[0]] + parts[1..] == parts;
    }
  }

  /** Character replacement commutes with joining when the pieces do not contain the
      replaced character. */
  lemma {:induction false} ReplaceJoin(parts: seq<string>, sep: char, a: char, b: char)
    requires forall k :: 0 <= k < |parts| ==> a !in parts[k]
    ensures Replace(Join(parts, sep), a, b) == Join(parts, if sep == a then b else sep)
    decreases |parts|
  {
    if |parts| == 0 {
    } else if |parts| == 1 {
      assert Replace(parts[0], a, b) == parts[0];
    } else {
      ReplaceJoin(parts[1..], sep, a, b);
      assert Replace(parts[0], a, b) == parts[0];
      var s := Join(parts[1..], sep);
      assert Replace(parts[0] + [sep] + s, a, b)
          == Replace(parts[0], a, b) + [if sep == a then b else sep] + Replace(s, a, b);
    }
  }

  /** Splitting at one occurrence of the separator and then splitting both sides is the same
      as splitting the whole string. */
  lemma SplitAppend(x: string, sep: char, y: string)
    ensures Split(x + [sep] + y, sep) == Split(x, sep) + Split(y, sep)
  {
    var front, back := Split(x, sep), Split(y, sep);
    JoinAppend(front, sep, back);
    assert forall k :: 0 <= k < |front + back| ==> sep !in (front + back)[k] by {
      forall k | 0 <= k < |front + back|
        ensures sep !in (front + back)[k]
      {
        if k >= |front| {
          assert (front + back)[k] == back[k - |front|];
        }
      }
    }
    SplitJoin(front + back, sep);
  }

  /** Joining two non-empty lists of pieces is joining each and putting a separator between. */
  lemma {:induction false} JoinAppend(xs: seq<string>, sep: char, ys: seq<string>)
    requires |xs| >= 1 && |ys| >= 1
    ensures Join(xs + ys, sep) == Join(xs, sep) + [sep] + Join(ys, sep)
    decreases |xs|
  {
    var zs := xs + ys;
    assert zs[0] == xs[0];
    assert zs[1..] == xs[1..] + ys;
    if |xs| > 1 {
      JoinAppend(xs[1..], sep, ys);
    } else {
      assert xs[1..] + ys == ys;
    }
  }

  // ---------------------------------------------------------------------------
  // Substrings
  // ---------------------------------------------------------------------------

  /** `needle` occurs in `hay` starting at position `i`. */
  predicate OccursAt(needle: string, hay: string, i: int) {
    0 <= i && i + |needle| <= |hay| && hay[i..i + |needle|] == needle
  }

  lemma OccursInTail(needle: string, hay: string)
    requires |hay| > 0
    ensures forall i :: 1 <= i ==> (OccursAt(needle, hay, i) <==> OccursAt(needle, hay[1..], i - 1))
  {
    forall i | 1 <= i
      ensures OccursAt(needle, hay, i) <==> OccursAt(needle, hay[1..], i - 1)
    {
      if i + |needle| <= |hay| {
        assert hay[1..][i - 1..i - 1 + |needle|] == hay[i..i + |needle|];
      }
    }
  }

  /** Python's substring test `needle in hay`. */
  function Contains(hay: string, needle: string): (b: bool)
    ensures b <==> exists i :: OccursAt(needle, hay, i)
    decreases |hay|
  {
    if |needle| > |hay| then
      assert forall i :: !OccursAt(needle, hay, i);
      false
    else if hay[..|needle|] == needle then
      assert OccursAt(needle, hay, 0);
      true
    else
      OccursInTail(needle, hay);
      assert !OccursAt(needle, hay, 0);
      var b := Contains(hay[1..], needle);
      assert b ==> exists i :: OccursAt(needle, hay, i) by {
        if b {
          var j :| OccursAt(needle, hay[1..], j);
          assert OccursAt(needle, hay, j + 1);
        }
      }
      b
  }

  // ---------------------------------------------------------------------------
  // Subsequences and filtered comprehensions
  // ---------------------------------------------------------------------------

  /** `a` can be obtained from `b` by deleting elements. */
  predicate IsSubsequence<T(==)>(a: seq<T>, b: seq<T>)
    decreases |b|
  {
    |a| == 0 || (|b| > 0 && (if a[0] == b[0] then IsSubsequence(a[1..], b[1..]) else IsSubsequence(a, b[1..])))
  }

  lemma {:induction false} SubsequenceLength<T>(a: seq<T>, b: seq<T>)
    requires IsSubsequence(a, b)
    ensures |a| <= |b|
    decreases |b|
  {
    if |a| > 0 {
      if a[0] == b[0] {
        SubsequenceLength(a[1..], b[1..]);
      } else {
        SubsequenceLength(a, b[1..]);
      }
    }
  }

  /** A subsequence as long as the whole is the whole. */
  lemma {:induction false} SubsequenceSameLength<T>(a: seq<T>, b: seq<T>)
    requires IsSubsequence(a, b) && |a| == |b|
    ensures a == b
    decreases |b|
  {
    if |a| > 0 {
      if a[0] == b[0] {
        SubsequenceSameLength(a[1..], b[1..]);
        assert a == [a[0]] + a[1..] && b == [b[0]] + b[1..];
      } else {
        SubsequenceLength(a, b[1..]);
      }
    }
  }

  /** The elements of `xs` that pass `p`, in order; `Filter` below says what this keeps. */
  function Keep<T>(p: T -> bool, xs: seq<T>): seq<T>
    decreases |xs|
  {
    if |xs| == 0 then []
    else if p(xs[0]) then [xs[0]] + Keep(p, xs[1..])
    else Keep(p, xs[1..])
  }

  lemma {:induction false} KeepFacts<T(!new)>(p: T -> bool, xs: seq<T>)
    ensures IsSubsequence(Keep(p, xs), xs)
    ensures forall k :: 0 <= k < |Keep(p, xs)| ==> p(Keep(p, xs)[k]) && Keep(p, xs)[k] in xs
    ensures forall x :: p(x) ==> multiset(Keep(p, xs))[x] == multiset(xs)[x]
    ensures forall x :: x in Keep(p, xs) <==> x in xs && p(x)
    decreases |xs|
  {
    if |xs| > 0 {
      var rest := Keep(p, xs[1..]);
      KeepFacts(p, xs[1..]);
      assert xs == [xs[0]] + xs[1..];
      assert multiset(xs) == multiset{xs[0]} + multiset(xs[1..]);
      if p(xs[0]) {
        var r := [xs[0]] + rest;
        assert r[1..] == rest;
        assert multiset(r) == multiset{xs[0]} + multiset(rest);
      } else {
        assert |rest| > 0 ==> rest[0] != xs[0];
      }
    }
  }

  /** The list comprehension `[x for x in xs if p(x)]`: it keeps the order, keeps every element
      that satisfies `p` as often as it occurs, and keeps nothing else. */
  function Filter<T(==,!new)>(p: T -> bool, xs: seq<T>): (r: seq<T>)
    ensures IsSubsequence(r, xs)
    ensures forall k :: 0 <= k < |r| ==> p(r[k]) && r[k] in xs
    ensures forall x :: p(x) ==> multiset(r)[x] == multiset(xs)[x]
    ensures forall x :: x in r <==> x in xs && p(x)
  {
    KeepFacts(p, xs);
    Keep(p, xs)
  }

  lemma {:induction false} KeepKeep<T>(p: T -> bool, q: T -> bool, pq: T -> bool, xs: seq<T>)
    requires forall x :: pq(x) == (p(x) && q(x))
    ensures Keep(q, Keep(p, xs)) == Keep(pq, xs)
    decreases |xs|
  {
    if |xs| > 0 {
      KeepKeep(p, q, pq, xs[1..]);
      if p(xs[0]) {
        var inner := [xs[0]] + Keep(p, xs[1..]);
        assert inner[1..] == Keep(p, xs[1..]);
      }
    }
  }

  /** Filtering twice is filtering once by both tests. */
  lemma FilterFilter<T(!new)>(p: T -> bool, q: T -> bool, pq: T -> bool, xs: seq<T>)
    requires forall x :: pq(x) == (p(x) && q(x))
    ensures Filter(q, Filter(p, xs)) == Filter(pq, xs)
  {
    KeepKeep(p, q, pq, xs);
  }

  lemma {:induction false} KeepAppend<T>(p: T -> bool, xs: seq<T>, ys: seq<T>)
    ensures Keep(p, xs + ys) == Keep(p, xs) + Keep(p, ys)
    decreases |xs|
  {
    if |xs| > 0 {
      var zs := xs + ys;
      assert zs[0] == xs[0];
      assert zs[1..] == xs[1..] + ys;
      KeepAppend(p, xs[1..], ys);
    } else {
      assert xs + ys == ys;
    }
  }

  /** Filtering a concatenation filters each part. */
  lemma FilterAppend<T(!new)>(p: T -> bool, xs: seq<T>, ys: seq<T>)
    ensures Filter(p, xs + ys) == Filter(p, xs) + Filter(p, ys)
  {
    KeepAppend(p, xs, ys);
  }

  /** One step of the comprehension: the first element is kept exactly when it passes. */
  lemma FilterCons<T(!new)>(p: T -> bool, xs: seq<T>)
    requires |xs| > 0
    ensures Filter(p, xs) == if p(xs[0]) then [xs[0]] + Filter(p, xs[1..]) else Filter(p, xs[1..])
  {
  }

  lemma {:induction false} KeepAll<T>(p: T -> bool, xs: seq<T>)
    requires forall k :: 0 <= k < |xs| ==> p(xs[k])
    ensures Keep(p, xs) == xs
    decreases |xs|
  {
    if |xs| > 0 {
      KeepAll(p, xs[1..]);
      assert xs == [xs[0]] + xs[1..];
    }
  }

  /** Filtering by a test every element passes changes nothing. */
  lemma FilterAll<T(!new)>(p: T -> bool, xs: seq<T>)
    requires forall k :: 0 <= k < |xs| ==> p(xs[k])
    ensures Filter(p, xs) == xs
  {
    KeepAll(p, xs);
  }

  /** The comprehension `[f(x) for x in xs]`. */
  function Map<A, B>(f: A -> B, xs: seq<A>): (r: seq<B>)
    ensures |r| == |xs|
    ensures forall k :: 0 <= k < |xs| ==> r[k] == f(xs[k])
  {
    seq(|xs|, k requires 0 <= k < |xs| => f(xs[k]))
  }

  lemma MapAppend<A, B>(f: A -> B, xs: seq<A>, ys: seq<A>)
    ensures Map(f, xs + ys) == Map(f, xs) + Map(f, ys)
  {
    var l, r := Map(f, xs + ys), Map(f, xs) + Map(f, ys);
    forall k | 0 <= k < |l|
      ensures l[k] == r[k]
    {
      if k < |xs| {
        assert (xs + ys)[k] == xs[k];
      } else {
        assert (xs + ys)[k] == ys[k - |xs|];
      }
    }
  }

  /** No element occurs twice. */
  predicate Distinct<T(==)>(s: seq<T>) {
    forall i, j :: 0 <= i < j < |s| ==> s[i] != s[j]
  }

  // ---------------------------------------------------------------------------
  // str(int)
  // ---------------------------------------------------------------------------

  predicate IsDigits(s: string) {
    forall k :: 0 <= k < |s| ==> '0' <= s[k] <= '9'
  }

  /** The number a string of decimal digits denotes. */
  function DecimalValue(s: string): nat
    requires IsDigits(s)
    decreases |s|
  {
    if |s| == 0 then 0
    else DecimalValue(s[..|s| - 1]) * 10 + ((s[|s| - 1] as int) - ('0' as int))
  }

  function DigitChar(d: int): (c: char)
    requires 0 <= d < 10
    ensures '0' <= c <= '9' && (c as int) - ('0' as int) == d
  {
    (('0' as int) + d) as char
  }

  /** Python's `str(n)` for `n >= 0`: the shortest decimal numeral of `n`. */
  function NatToString(n: nat): (s: string)
    ensures |s| >= 1 && IsDigits(s)
    ensures DecimalValue(s) == n
    ensures |s| > 1 ==> s[0] != '0'
    decreases n
  {
    if n < 10 then [DigitChar(n)]
    else
      var front := NatToString(n / 10);
      var s := front + [DigitChar(n % 10)];
      assert s[..|s| - 1] == front;
      s
  }

  /** Python's `str(i)` for any integer. */
  function IntToString(i: int): (s: string)
    ensures |s| >= 1
    ensures i < 0 <==> s[0] == '-'
    ensures i >= 0 ==> IsDigits(s) && DecimalValue(s) == i
    ensures i < 0 ==> IsDigits(s[1..]) && DecimalValue(s[1..]) == -i
    ensures i >= 0 && |s| > 1 ==> s[0] != '0'
    ensures i < 0 ==> |s| > 1 && s[1] != '0'
  {
    if i < 0 then
      var s := "-" + NatToString(-i);
      assert s[1..] == NatToString(-i);
      s
    else NatToString(i)
  }
}

=== FILE: wrappers.dfy ===
/** The two failure-carrying shapes the model needs. */
module Wrappers {

  /** A value that may be absent: Python's `None`, or a key a JSON object does not carry. */
  datatype Option<+T> = None | Some(value: T)

  /** The outcome of a Python computation that either returns a value or raises. */
  datatype Result<+T, +E> = Ok(value: T) | Err(error: E) {

    predicate IsFailure() {
      Err?
    }

    function PropagateFailure<U>(): Result<U, E>
      requires Err?
    {
      Err(error)
    }

    function Extract(): T
      requires Ok?
    {
      value
    }
  }
}
